=== FILE: README.md ===
# git-pynex in Dafny

A model of the string logic inside `git-pynex.py`, a small Python helper for
git-annex repositories. It covers four parts, each with proofs about it:

- **Content keys** (`anx_key`), module `AnnexKey`. The key of a file is
  `SHA256E-s<size>--<sha256>.<ext>`. The extension is
  `".".join(name.rsplit(".", 2)[1:])` of the path exactly as passed on the
  command line: the text after the second-to-last dot, or after the only
  dot, or nothing when there is no dot. Dots in directory names count, so
  `a.d/f` has extension `d/f`.
- **Content locations** (`anx_key_hash`, `anx_key_path`), module `KeyPath`.
  The content of a key lives at
  `<root>/.git/annex/objects/<h[0:3]>/<h[3:6]>/<key>`, where `h` is the MD5
  hex digest of the key.
- **The `.git/config` reader** (`parse_git_config`), module `GitConfig`.
  It is a single pass over the lines that tracks the current section header.
  It builds the annex-uuid map, which sends each `annex-uuid = <uuid>` value
  to the subsection name of the header above it. The pass is modelled as a
  fold over the lines, with its three exceptions as `ConfigError` values.
- **The `repos` listing** (`cmd_repos`), module `Repos`.
  - Each `uuid.log` line is cut at its first and its last space into UUID,
    description and `timestamp=<seconds>s`.
  - The description is annotated with ` [here]` or ` [git remote: <name>]`,
    and `[here]` wins.
  - Rows are printed until the first line that raises.

`PyStr` holds the Python `str` operations these rely on, with the
semantics of CPython for one-character separators:
- `rstrip`/`strip` over `str.isspace`,
- `split`, `split(c, 1)`, `rsplit(c, n)` and `join`,
- slicing with negative and out-of-range bounds,
- `%d`.

`Wrappers` holds `Option` and `Result`.

Python exceptions are values. `GitConfig.ConfigError` holds the exceptions
of the config reader, `Repos.LogLineError` those of one log line and
`Repos.ReposError` the exception that ends `repos`. Line numbers in errors
count from 0.

Where the code and the repository's test suite disagree, the model follows
the code:
- A file name without a dot still gets the `.` separator, so its key ends in
  a bare `.` (git-pynex.py:43; tests.py:52 expects no dot).
- The object path holds the key once (git-pynex.py:53). tests.py:52-74
  expects `<key>/<key>`, which belongs to a later revision. From those tests
  the model takes only the extensions and the `f5a/2c8` bucket.

## Model

| member | source | states |
|---|---|---|
| `AnnexKey.Extension` | git-pynex.py:42 | A name without a dot has an empty extension. Otherwise the name is a stem, a dot and the extension, and the extension holds `min(2, dots) - 1` dots: at most one. |
| `AnnexKey.ExtensionComponents` | git-pynex.py:42 | The extension is the last `min(k, 2)` dot-separated components of the name, joined by dots, where `k` is the number of dots. |
| `AnnexKey.ExtensionOneDot` | git-pynex.py:42 | With exactly one dot, the extension is the text after it. |
| `AnnexKey.ExtensionLastTwo` | git-pynex.py:42 | With two dots or more, the extension is the last two components. |
| `AnnexKey.ExtensionExampleOneDot` | tests.py:58-62 | `file2.txt` has extension `txt`. |
| `AnnexKey.ExtensionExampleTwoDots` | tests.py:64-68 | `file3.foo.bar` has extension `foo.bar`. |
| `AnnexKey.ExtensionExampleThreeDots` | tests.py:70-74 | `file4.foo.bar.123` has extension `bar.123`. |
| `AnnexKey.KeyWithoutExtension` | git-pynex.py:42-43 | A dot-less name gives the key for an empty extension, and that key ends in `.`. |
| `AnnexKey.ParseKey` | git-pynex.py:43 | A key that parses is exactly `SHA256E-s` + `%d` of the size + `--` + a 64-digit lower-hex digest + `.` + the extension. |
| `AnnexKey.ParseFormatKey` | git-pynex.py:43 | Parsing a formatted key gives back its size, digest and extension. |
| `AnnexKey.FormatKey` | git-pynex.py:43 | A key starts with `SHA256E-s`, ends with `.` + the extension, and is longer than the two together. `ParseKeyExactly` pins down the size and digest between them. |
| `AnnexKey.Key` | git-pynex.py:39-43 | The key of a name, size and SHA-256 digest parses back into that size, that digest and the name's extension. |
| `AnnexKey.ParseKeyExactly` | git-pynex.py:43 | A key parses to given parts if and only if it is the formatted key of those parts with a SHA-256 digest. |
| `KeyPath.KeyHash` | git-pynex.py:46-48 | With a real MD5, the key hash is 32 lower-case hex characters. |
| `KeyPath.ObjectPath` | git-pynex.py:51-53 | The content location starts with `<root>/.git/annex/objects/` and ends with `/` + key. |
| `KeyPath.ObjectPathShape` | git-pynex.py:51-53 | After the objects directory come `h[0:3]`, `/`, `h[3:6]`, `/` and the key, so both buckets are three hex characters. |
| `KeyPath.ObjectPathOfHashPrefix` | git-pynex.py:53 | The location is spelled out from the first six digits of the key's hash. |
| `KeyPath.ObjectPathExample` | tests.py:58-62 | The key of the 15-byte `file2.txt` with the test's SHA-256 digest is `SHA256E-s15--2e57e969…befc0.txt`. When that key's hash starts with `f5a2c8`, its content lives at `./.git/annex/objects/f5a/2c8/<key>`. |
| `KeyPath.KeyOfObjectPath` | git-pynex.py:53 | A path that reads back as a key is the objects directory, eight bucket characters and that key. |
| `KeyPath.KeyOfObjectPathRoundTrip` | git-pynex.py:51-53 | The key is recovered from its content location. |
| `KeyPath.ObjectPathExactly` | git-pynex.py:51-53 | A path is the location of a key if and only if it reads back as that key and its buckets are the first six digits of the key's hash. |
| `KeyPath.ObjectPathInjective` | git-pynex.py:51-53 | Distinct keys under one root have distinct locations. |
| `GitConfig.Classify` | git-pynex.py:94-104 | After `rstrip`, a line is empty if and only if nothing is left. It is a header if and only if it starts with `[`. Otherwise it is malformed if and only if it has other than one `=`. |
| `GitConfig.ClassifyMeaning` | git-pynex.py:94-104 | After `rstrip`, a line is one of four kinds: empty; a header when it starts with `[`; malformed when it has other than one `=`; otherwise an assignment of the stripped right side to the stripped left side of the `=`. |
| `GitConfig.HeaderWithName` | git-pynex.py:95-101 | A line that reads `[section name]` after `rstrip`, such as that header with its newline, sets the section and the subsection name, with its quotes stripped. |
| `GitConfig.HeaderWithoutName` | git-pynex.py:95-101 | A line that reads `[section]` after `rstrip`, newline or not, has no subsection name. |
| `GitConfig.Step` | git-pynex.py:95-106 | One iteration succeeds exactly when the line is accepted. An empty line raises at `l[0]`, and a malformed line raises at the unpack. A header sets `sec` to its first word and binds `sec_name`. Only `annex-uuid` binds the value to the current `sec_name`. Nothing else changes. |
| `GitConfig.Run` | git-pynex.py:93-106 | A failed pass names one of the lines it was given. |
| `GitConfig.RunSecName` | git-pynex.py:95-101 | During the pass, `sec_name` is the subsection name of the last header so far. |
| `GitConfig.RunSucceedsIffAccepted` | git-pynex.py:93-106 | The pass succeeds if and only if every line is accepted given the headers before it. |
| `GitConfig.RunFailsAtFirstBadLine` | git-pynex.py:93-106 | A failed pass reports the first line that is not accepted, and the error kind matches that line. |
| `GitConfig.RunKeys` | git-pynex.py:104-106 | A UUID is in the map if and only if some line assigns it to `annex-uuid`. |
| `GitConfig.RunLastWins` | git-pynex.py:104-106 | The last `annex-uuid` line for a UUID decides its remote name: the subsection of the header before that line. |
| `GitConfig.ParseGitConfig` | git-pynex.py:89-106 | Reading the config succeeds if and only if every line, as read, is accepted given the headers before it. An error names one of the lines. |
| `GitConfig.ParseGitConfigKeys` | git-pynex.py:93-106 | On the lines as read, a UUID is in the returned map if and only if some line assigns it to `annex-uuid`. |
| `GitConfig.ParseGitConfigLastWins` | git-pynex.py:93-106 | On the lines as read, the last `annex-uuid` line for a UUID has a header above it, and the map sends the UUID to that header's subsection name. |
| `GitConfig.ParseGitConfigError` | git-pynex.py:89-106 | On the lines as read, the error names a line that is not accepted while every line before it is. It is `EmptyLine` if and only if that line is empty after `rstrip`. It is `BadAssignment` if and only if that line is not a header and has other than one `=`. It is `UnboundSection` if and only if that line assigns `annex-uuid`, and then no header came before it. |
| `Repos.ParseUuidLine` | git-pynex.py:134-136 | A line with two or more spaces is UUID, space, description, space, stamp, with no space in the UUID or the stamp. No space raises at the first unpack and one space at the second. |
| `Repos.ParseUuidLineRoundTrip` | git-pynex.py:134-136 | A line written from a UUID, a description and a stamp reads back as those three fields. |
| `Repos.StampSeconds` | git-pynex.py:137 | The seconds exist if and only if the stamp holds `=`. They are the text after the first `=` without its last character. |
| `Repos.StampSecondsOf` | git-pynex.py:137 | `timestamp=<seconds>s` yields `<seconds>`. |
| `Repos.Annotate` | git-pynex.py:140-143 | The description is kept as a prefix. ` [here]` is added if and only if the UUID is this repository's. Otherwise ` [git remote: <name>]` is added for a UUID of the map, and nothing is added if and only if neither holds. |
| `Repos.LineFields` | git-pynex.py:134-143 | Cutting a line never raises the conversion error. A line that is cut has a space, and its UUID is the text before the first space of the stripped line. |
| `Repos.Row` | git-pynex.py:134-144 | A printed row starts with the line's UUID and a space, and ends with a space and the annotated description. A line raises the conversion error if and only if it was cut without error. |
| `Repos.LineFieldsOfLine` | git-pynex.py:134-143 | A line that reads `uuid desc key=<seconds><unit>` after `rstrip`, such as that line with its newline, gives its UUID, its seconds and its annotated description. |
| `Repos.LineFieldsErrors` | git-pynex.py:134-137 | A line raises for no space, for exactly one space, or for a last word without `=`, each if and only if that holds of the stripped line. Cutting the line never raises the conversion error. |
| `Repos.RowOfLine` | git-pynex.py:134-144 | A line that is well formed after `rstrip`, newline or not, prints as UUID, converted time and annotated description. It raises when its seconds do not convert. |
| `Repos.PrintRows` | git-pynex.py:133-144 | Rows are printed in order up to the first failing line, whose error (with its index) ends the loop. Every row is printed if and only if no line fails. |
| `Repos.Repos` | git-pynex.py:126-131 | A config error ends `repos` before anything is printed. Otherwise the heading comes first. |
| `Repos.Listing` | git-pynex.py:131-133 | The listing starts with the heading. |
| `Repos.ListingAllRows` | git-pynex.py:131-144 | When every line is well formed, the heading is followed by exactly one row per line, in order. |
| `Repos.ListingUpToFirstBadLine` | git-pynex.py:131-144 | After the heading come the rows of the lines before the first failing one, and that line's exception is reported. |
| `Repos.RemoteRow` | git-pynex.py:134-144 | A line of a remote's UUID that is well formed after `rstrip`, newline or not, and is not this repository's prints, when its time converts, as UUID, time, description and ` [git remote: <name>]`. |
| `Repos.ReposRemoteRow` | git-pynex.py:104-144 | Take a UUID whose last `annex-uuid` line in `.git/config` sits under a header with subsection name `n`. Its `uuid.log` line, well formed after `rstrip` (newline or not), when it is not this repository's and its time converts, prints as UUID, time, description and ` [git remote: n]`. That row is printed unless an earlier line raises first. |
| `PyStr.RStripPadded` | git-pynex.py:94 | `rstrip` removes trailing white space such as a line's newline, and nothing before the last other character. A line as read therefore meets the `RStrip(raw) == …` conditions above. |
| `PyStr.RSplitTail` | git-pynex.py:42 | The pieces `rsplit(c, n)` cuts off are the last `min(n, count)` pieces of `split(c)`. |
| `PyStr.Slice` | git-pynex.py:53 | Slicing within bounds is the plain subsequence. A negative upper bound counts from the end, so `s[lo:-k]` drops the last `k` characters, and is empty once the bounds cross. A slice is never longer than the string. |
| `PyStr.DecimalRoundTrip` | git-pynex.py:43 | `%d` of a size reads back as that size. |
| `PyStr.DecimalCanonical` | git-pynex.py:43 | Canonical decimal text is exactly what `%d` prints for its value. |

## Left out

- `hash_file` (file reading and SHA-256) is not modelled. The digest is an input to `Key`.
- `os.stat` is not modelled. The size is an input.
- MD5 is not modelled. It is the function parameter `md5hex`, and `IsMd5Hex` states that it returns 32 lower-case hex characters.
- KeyPath.KeyHash: its contract holds only under `IsMd5Hex`, because MD5 itself is a parameter.
- KeyPath.KeyHash: strings are sequences of Unicode scalar values. A Python `str` can also hold lone surrogates (for example a file name decoded with `surrogateescape`), and for such a key `key.encode()` raises `UnicodeEncodeError` before MD5 runs. That exception of `anx_key_hash` is outside the model.
- The `dot_git_path` global is the parameter `root`, and `find_dot_git` (a walk over the file system) is not modelled.
- `get_this_uuid` and `checkout_git_annex` run shell commands. The UUID is the parameter `here`, and the lines of `uuid.log` are an input.
- Reading `.git/config` and `uuid.log` is not modelled. Their lines are inputs, each possibly still ending in its newline.
- `float`, `time.localtime` and `time.strftime` are the parameter `localTime`, a map from the seconds texts that convert to the text they print as. A text outside the map stands for any exception of that conversion.
- The `annex_remote_map` global is the map `ParseGitConfig` returns. It starts empty, as it does when the command runs once.
- Argument parsing, the other commands and `print` are not modelled. The printed lines of `repos` are a sequence.
- The integration tests run shell commands and a later revision's `init` and `add`. Only their extensions and one bucket appear here.

=== FILE: annexkey.dfy ===
/** Content keys of the `SHA256E` backend (`anx_key` in git-pynex.py):
    `SHA256E-s<size>--<sha256 hex digest>.<extension>`.

    Reading the file and hashing it are not part of this model: the size
    (`os.stat(...)[6]`) and the SHA-256 hex digest are inputs. */
module AnnexKey {
  import opened Wrappers
  import opened PyStr

  const KeyPrefix: string := "SHA256E-s"

  /** A SHA-256 `hexdigest()`: 64 lower-case hexadecimal characters. */
  predicate IsSha256Hex(d: string) {
    |d| == 64 && IsLowerHex(d)
  }

  /** `".".join(name.rsplit(".", 2)[1:])`: the text after the second-to-last
      dot of the name, or after its only dot, or nothing when it has none. */
  function Extension(name: string): (ext: string)
    ensures '.' !in name ==> ext == ""
    ensures '.' in name ==> |ext| < |name| && name == name[..|name| - |ext| - 1] + "." + ext
    ensures '.' in name ==> Count(ext, '.') == Min(2, Count(name, '.')) - 1
  {
    var parts := RSplit(name, '.', 2);
    CountZero(name, '.');
    if |parts| == 1 then
      Join('.', parts[1..])
    else
      var ext := Join('.', parts[1..]);
      JoinCount('.', parts[1..]);
      assert name == parts[0] + "." + ext;
      ext
  }

  /** The extension is the last `min(k, 2)` dot-separated components of the
      name, `k` being its number of dots. */
  lemma ExtensionComponents(name: string)
    ensures Extension(name) == Join('.', Last(Split(name, '.'), Min(2, Count(name, '.'))))
  {
    RSplitTail(name, '.', 2);
  }

  /** With one dot, the extension is the text after it. */
  lemma ExtensionOneDot(a: string, b: string)
    requires '.' !in a && '.' !in b
    ensures Extension(a + "." + b) == b
  {
    SplitWord(a);
    SplitSnoc(a, b, '.');
    ExtensionComponents(a + "." + b);
  }

  /** With two dots or more, the extension is the last two components. */
  lemma ExtensionLastTwo(p: string, b: string, c: string)
    requires '.' !in b && '.' !in c
    ensures Extension(p + "." + b + "." + c) == b + "." + c
  {
    var q := p + "." + b;
    SplitSnoc(p, b, '.');
    SplitSnoc(q, c, '.');
    var parts := Split(p, '.') + [b] + [c];
    assert Split(q + "." + c, '.') == parts;
    assert Last(parts, 2) == [b, c];
    ExtensionComponents(q + "." + c);
  }

  lemma SplitWord(w: string)
    requires '.' !in w
    ensures Split(w, '.') == [w]
  {
  }

  /** The extensions the repository's test suite expects for `file2.txt`,
      `file3.foo.bar` and `file4.foo.bar.123`, each name written out at its
      dots. */
  lemma ExtensionExampleOneDot()
    ensures Extension("file2.txt") == "txt"
  {
    assert "file2.txt" == "file2" + "." + "txt";
    ExtensionOneDot("file2", "txt");
  }

  lemma ExtensionExampleTwoDots()
    ensures Extension("file3.foo.bar") == "foo.bar"
  {
    assert "file3.foo.bar" == "file3" + "." + "foo" + "." + "bar";
    assert "foo.bar" == "foo" + "." + "bar";
    ExtensionLastTwo("file3", "foo", "bar");
  }

  lemma ExtensionExampleThreeDots()
    ensures Extension("file4.foo.bar.123") == "bar.123"
  {
    assert "file4.foo.bar.123" == "file4.foo" + "." + "bar" + "." + "123";
    assert "bar.123" == "bar" + "." + "123";
    ExtensionLastTwo("file4.foo", "bar", "123");
  }

  /** The parts a key is made of. */
  datatype KeyFields = KeyFields(size: nat, digest: string, ext: string)

  /** `"SHA256E-s%d--%s.%s" % (size, digest, ext)`: the backend prefix first,
      a dot and the extension last. */
  function FormatKey(f: KeyFields): (key: string)
    ensures |KeyPrefix| + |f.ext| < |key|
    ensures key[..|KeyPrefix|] == KeyPrefix
    ensures key[|key| - |f.ext| - 1..] == "." + f.ext
  {
    var body := FormatKeyBody(f);
    PrefixAndSuffix(KeyPrefix, Decimal(f.size) + ("--" + f.digest), "." + f.ext);
    KeyPrefix + body
  }

  lemma PrefixAndSuffix(a: string, b: string, c: string)
    ensures (a + (b + c))[..|a|] == a
    ensures (a + (b + c))[|a + (b + c)| - |c|..] == c
  {
  }

  /** What follows `SHA256E-s` in a key. */
  function FormatKeyBody(f: KeyFields): string {
    Decimal(f.size) + ("--" + (f.digest + ("." + f.ext)))
  }

  /** `anx_key(fname)` once the size and the digest are known. A key made
      from a SHA-256 digest parses back into the size, the digest and the
      extension of the name. */
  function Key(name: string, size: nat, digest: string): (key: string)
    ensures IsSha256Hex(digest) ==> ParseKey(key) == Some(KeyFields(size, digest, Extension(name)))
  {
    var f := KeyFields(size, digest, Extension(name));
    assert IsSha256Hex(digest) ==> ParseKey(FormatKey(f)) == Some(f) by {
      if IsSha256Hex(digest) {
        ParseFormatKey(f);
      }
    }
    FormatKey(f)
  }

  /** A name without a dot still gets the `"."` separator: its key ends in a
      bare dot. */
  lemma KeyWithoutExtension(name: string, size: nat, digest: string)
    requires '.' !in name
    ensures Key(name, size, digest) == FormatKey(KeyFields(size, digest, ""))
    ensures Key(name, size, digest)[|Key(name, size, digest)| - 1] == '.'
  {
  }

  /** Reads a key back into its parts; `None` unless the key is exactly what
      `FormatKey` writes for a SHA-256 digest. */
  function ParseKey(key: string): (r: Option<KeyFields>)
    ensures r.Some? ==> FormatKey(r.value) == key && IsSha256Hex(r.value.digest)
  {
    if |key| < |KeyPrefix| || key[..|KeyPrefix|] != KeyPrefix then None
    else
      var rest := key[|KeyPrefix|..];
      match ParseSized(rest)
      case None => None
      case Some(f) =>
        PrefixThenRest(KeyPrefix, key);
        Some(f)
  }

  lemma PrefixThenRest(prefix: string, s: string)
    requires |prefix| <= |s| && s[..|prefix|] == prefix
    ensures s == prefix + s[|prefix|..]
  {
    assert s == s[..|prefix|] + s[|prefix|..];
  }

  /** The part of a key after `SHA256E-s`: size, `--`, digest, `.`, extension. */
  function ParseSized(rest: string): (r: Option<KeyFields>)
    ensures r.Some? ==> rest == FormatKeyBody(r.value)
    ensures r.Some? ==> IsSha256Hex(r.value.digest)
  {
    var n := DigitRun(rest);
    var d := rest[..n];
    if !IsCanonicalDecimal(d) || |rest| < n + 2 || rest[n..n + 2] != "--" then None
    else
      match ParseDigest(rest[n + 2..])
      case None => None
      case Some(f) =>
        SizedBody(rest, n, f.digest, f.ext);
        Some(KeyFields(DecimalValue(d), f.digest, f.ext))
  }

  /** A canonical size, `--`, and a body put back together give `rest`. */
  lemma SizedBody(rest: string, n: nat, digest: string, ext: string)
    requires n + 2 <= |rest| && IsCanonicalDecimal(rest[..n]) && rest[n..n + 2] == "--"
    requires rest[n + 2..] == digest + ("." + ext)
    ensures rest == FormatKeyBody(KeyFields(DecimalValue(rest[..n]), digest, ext))
  {
    var d := rest[..n];
    DecimalCanonical(d);
    assert rest == d + (rest[n..n + 2] + rest[n + 2..]);
  }

  /** The digest and the extension, cut at the first dot. */
  function ParseDigest(body: string): (r: Option<KeyFields>)
    ensures r.Some? ==> body == r.value.digest + ("." + r.value.ext) && IsSha256Hex(r.value.digest)
  {
    if '.' !in body then None
    else
      var i := IndexOf(body, '.');
      assert body == body[..i] + ("." + body[i + 1..]);
      if IsSha256Hex(body[..i]) then Some(KeyFields(0, body[..i], body[i + 1..])) else None
  }

  /** Parsing what `FormatKey` writes recovers size, digest and extension. */
  lemma ParseFormatKey(f: KeyFields)
    requires IsSha256Hex(f.digest)
    ensures ParseKey(FormatKey(f)) == Some(f)
  {
    var key := FormatKey(f);
    assert key[..|KeyPrefix|] == KeyPrefix;
    assert key[|KeyPrefix|..] == FormatKeyBody(f);
    ParseSizedOf(f);
  }

  /** The size is read back up to the `--`, then the digest and extension. */
  lemma ParseSizedOf(f: KeyFields)
    requires IsSha256Hex(f.digest)
    ensures ParseSized(FormatKeyBody(f)) == Some(f)
  {
    var d := Decimal(f.size);
    var rest := FormatKeyBody(f);
    var body := f.digest + ("." + f.ext);
    assert rest[..|d|] == d && rest[|d|] == '-';
    DigitRunUnique(rest, |d|);
    assert rest[|d|..|d| + 2] == "--" && rest[|d| + 2..] == body;
    ParseDigestOf(f.digest, f.ext);
    DecimalRoundTrip(f.size);
  }

  /** A SHA-256 digest holds no dot, so the body is cut right after it. */
  lemma ParseDigestOf(digest: string, ext: string)
    requires IsSha256Hex(digest)
    ensures ParseDigest(digest + ("." + ext)) == Some(KeyFields(0, digest, ext))
  {
    var body := digest + ("." + ext);
    assert body[..|digest|] == digest;
    IndexOfUnique(body, '.', |digest|);
    assert body[|digest| + 1..] == ext;
  }

  /** `ParseKey` accepts exactly the keys `FormatKey` writes for SHA-256
      digests, and returns the parts they were written from. */
  lemma ParseKeyExactly(key: string, f: KeyFields)
    ensures ParseKey(key) == Some(f) <==> key == FormatKey(f) && IsSha256Hex(f.digest)
  {
    if key == FormatKey(f) && IsSha256Hex(f.digest) {
      ParseFormatKey(f);
    }

  }
}

=== FILE: gitconfig.dfy ===
/** `parse_git_config` in git-pynex.py: one pass over the lines of
    `.git/config`, remembering the current section header and collecting a
    map from annex UUID to the name of the remote section it appears in.

    Reading the file is not part of this model: its lines are the input, in
    order, each possibly still ending in its newline. */
module GitConfig {
  import opened Wrappers
  import opened PyStr

  /** The local variable `sec_name`: unbound until the first section header,
      then the header's subsection name or `None`. */
  datatype SectionName = Unbound | Bound(name: Option<string>)

  /** What the loop carries from line to line: `sec`, `sec_name` and the
      annex-uuid map being built. */
  datatype ConfigState = ConfigState(
    section: Option<string>,
    secName: SectionName,
    remotes: map<string, Option<string>>)

  /** The exceptions the loop can raise, with the index of the offending line. */
  datatype ConfigError =
    | EmptyLine(line: nat)       // `l[0]` on a line that is empty after `rstrip`
    | BadAssignment(line: nat)   // unpacking `l.split("=")` into two names
    | UnboundSection(line: nat)  // reading `sec_name` before any header

  const Initial := ConfigState(None, Unbound, map[])

  const UuidKey: string := "annex-uuid"

  /** What one line of the file is, as the loop body sees it. */
  datatype Line =
    | Blank                                     // empty after `rstrip`
    | Header(section: string, name: Option<string>)
    | Assignment(key: string, value: string)    // exactly one `=`
    | Malformed                                 // no `=`, or more than one

  /** The words between the brackets, `l[1:-1].split(" ", 1)`. */
  function HeaderWords(l: string): seq<string> {
    SplitOnce(Slice(l, 1, -1), ' ')
  }

  /** `sec`: the header's first word. */
  function HeaderSection(l: string): string {
    HeaderWords(l)[0]
  }

  /** `sec_name`: the rest of the header with its quotes stripped, or `None`
      when the header is a single word. */
  function HeaderName(l: string): Option<string> {
    var words := HeaderWords(l);
    if |words| > 1 then Some(StripQuotes(words[1])) else None
  }

  /** The loop body's reading of a line: `rstrip`, then a header when it
      starts with `[`, else `[x.strip() for x in l.split("=")]`. */
  function Classify(raw: string): (line: Line)
    ensures line.Blank? <==> RStrip(raw) == ""
    ensures line.Header? <==> RStrip(raw) != "" && RStrip(raw)[0] == '['
    ensures line.Malformed? <==> RStrip(raw) != "" && RStrip(raw)[0] != '[' && Count(RStrip(raw), '=') != 1
  {
    ClassifyStrippedMeaning(RStrip(raw));
    ClassifyStripped(RStrip(raw))
  }

  /** The reading of a line once it is right-stripped. */
  function ClassifyStripped(l: string): Line {
    if |l| == 0 then Blank
    else if l[0] == '[' then Header(HeaderSection(l), HeaderName(l))
    else
      var parts := Split(l, '=');
      if |parts| != 2 then Malformed else Assignment(Strip(parts[0]), Strip(parts[1]))
  }

  /** How a line is read: empty after `rstrip`, a header when it then starts
      with `[`, malformed unless it has exactly one `=`, and otherwise an
      assignment of the stripped text after the `=` to the stripped text
      before it. */
  lemma ClassifyMeaning(raw: string)
    ensures var line, l := Classify(raw), RStrip(raw);
      && (line.Blank? <==> l == "")
      && (line.Header? <==> l != "" && l[0] == '[')
      && (line.Malformed? <==> l != "" && l[0] != '[' && Count(l, '=') != 1)
      && (line.Assignment? ==>
            && '=' in l
            && line.key == Strip(l[..IndexOf(l, '=')])
            && line.value == Strip(l[IndexOf(l, '=') + 1..]))
  {
    ClassifyStrippedMeaning(RStrip(raw));
  }

  lemma ClassifyStrippedMeaning(l: string)
    ensures var line := ClassifyStripped(l);
      && (line.Blank? <==> l == "")
      && (line.Header? <==> l != "" && l[0] == '[')
      && (line.Malformed? <==> l != "" && l[0] != '[' && Count(l, '=') != 1)
      && (line.Assignment? ==>
            && '=' in l
            && line.key == Strip(l[..IndexOf(l, '=')])
            && line.value == Strip(l[IndexOf(l, '=') + 1..]))
  {
    if l != "" && l[0] != '[' {
      if Count(l, '=') == 1 {
        SplitOne(l, '=');
      } else {
        SplitFacts(l, '=');
      }
    }
  }

  /** The line is `annex-uuid = v`. */
  predicate AssignsUuid(line: Line, v: string) {
    line == Assignment(UuidKey, v)
  }

  /** The line does not raise, given whether `sec_name` is bound. */
  predicate Accepted(line: Line, bound: bool) {
    match line
    case Blank => false
    case Malformed => false
    case Header(_, _) => true
    case Assignment(key, _) => key == UuidKey ==> bound
  }

  /** One iteration of the loop, on the line with index `lineNo`. */
  function Step(st: ConfigState, line: Line, lineNo: nat): (r: Result<ConfigState, ConfigError>)
    ensures r.Success? <==> Accepted(line, st.secName.Bound?)
    ensures r.Failure? ==> r.error.line == lineNo
    ensures r.Failure? ==> (r.error.EmptyLine? <==> line.Blank?) && (r.error.BadAssignment? <==> line.Malformed?)
    ensures r.Success? && line.Header? ==>
      && r.value.remotes == st.remotes
      && r.value.section == Some(line.section)
      && r.value.secName == Bound(line.name)
    ensures r.Success? && !line.Header? ==> r.value.section == st.section && r.value.secName == st.secName
    ensures r.Success? && line.Assignment? && line.key == UuidKey ==>
      r.value.remotes == st.remotes[line.value := st.secName.name]
    ensures r.Success? && !(line.Assignment? && line.key == UuidKey) ==> r.value.remotes == st.remotes
  {
    match line
    case Blank => Failure(EmptyLine(lineNo))
    case Malformed => Failure(BadAssignment(lineNo))
    case Header(section, name) => Success(st.(section := Some(section), secName := Bound(name)))
    case Assignment(key, val) =>
      if key != UuidKey then Success(st)
      else
        match st.secName
        case Unbound => Failure(UnboundSection(lineNo))
        case Bound(name) => Success(st.(remotes := st.remotes[val := name]))
  }

  /** The loop over already classified lines, stopping at the first exception. */
  function Run(lines: seq<Line>): (r: Result<ConfigState, ConfigError>)
    ensures r.Failure? ==> r.error.line < |lines|
    decreases |lines|
  {
    if |lines| == 0 then Success(Initial)
    else
      match Run(lines[..|lines| - 1])
      case Failure(e) => Failure(e)
      case Success(st) => Step(st, lines[|lines| - 1], |lines| - 1)
  }

  /** Every line of the file, read by `Classify`. */
  function ClassifyAll(raws: seq<string>): (lines: seq<Line>)
    ensures |lines| == |raws|
    ensures forall i :: 0 <= i < |raws| ==> lines[i] == Classify(raws[i])
  {
    seq(|raws|, i requires 0 <= i < |raws| => Classify(raws[i]))
  }

  /** `parse_git_config()`: the annex-uuid map, starting from an empty one.
      It raises unless every line is accepted given the headers before it,
      and then names a line of the file. */
  function ParseGitConfig(raws: seq<string>): (r: Result<map<string, Option<string>>, ConfigError>)
    ensures r.Success? <==> AllAccepted(ClassifyAll(raws), |raws|)
    ensures r.Failure? ==> r.error.line < |raws|
  {
    RunSucceedsIffAccepted(ClassifyAll(raws));
    match Run(ClassifyAll(raws))
    case Success(st) => Success(st.remotes)
    case Failure(e) => Failure(e)
  }

  // -----------------------------------------------------------------------
  // What the loop computes, stated line by line

  /** The `sec_name` in force after the given lines: that of the last header
      among them, unbound when there is none. */
  function SecNameAfter(lines: seq<Line>): SectionName
    decreases |lines|
  {
    if |lines| == 0 then Unbound
    else if lines[|lines| - 1].Header? then Bound(lines[|lines| - 1].name)
    else SecNameAfter(lines[..|lines| - 1])
  }

  /** The loop tracks the last header's subsection name. */
  lemma {:induction false} RunSecName(lines: seq<Line>)
    requires Run(lines).Success?
    ensures Run(lines).value.secName == SecNameAfter(lines)
    decreases |lines|
  {
    if |lines| > 0 {
      RunSecName(lines[..|lines| - 1]);
    }
  }

  /** Every line is accepted given the headers before it. */
  predicate AllAccepted(lines: seq<Line>, k: nat)
    requires k <= |lines|
  {
    forall i :: 0 <= i < k ==> Accepted(lines[i], SecNameAfter(lines[..i]).Bound?)
  }

  /** The loop succeeds exactly when every line is accepted given the
      headers before it. */
  lemma {:induction false} RunSucceedsIffAccepted(lines: seq<Line>)
    ensures Run(lines).Success? <==> AllAccepted(lines, |lines|)
    decreases |lines|
  {
    if |lines| > 0 {
      var n := |lines| - 1;
      var front := lines[..n];
      RunSucceedsIffAccepted(front);
      AllAcceptedSnoc(lines);
      if Run(front).Success? {
        RunSecName(front);
      }
    }
  }

  /** Acceptance of all lines is acceptance of all but the last, and of the
      last given the headers before it. */
  lemma AllAcceptedSnoc(lines: seq<Line>)
    requires |lines| > 0
    ensures var n := |lines| - 1;
      AllAccepted(lines, |lines|) <==>
        AllAccepted(lines[..n], n) && Accepted(lines[n], SecNameAfter(lines[..n]).Bound?)
  {
    var n := |lines| - 1;
    var front := lines[..n];
    if AllAccepted(lines, |lines|) {
      forall i | 0 <= i < n
        ensures Accepted(front[i], SecNameAfter(front[..i]).Bound?)
      {
        assert lines[i] == front[i] && lines[..i] == front[..i];
      }
    }
    if AllAccepted(front, n) && Accepted(lines[n], SecNameAfter(front).Bound?) {
      forall i | 0 <= i < |lines|
        ensures Accepted(lines[i], SecNameAfter(lines[..i]).Bound?)
      {
        if i < n {
          assert lines[i] == front[i] && lines[..i] == front[..i];
        }
      }
    }
  }

  /** When the loop fails, the error names the first line that is not
      accepted. */
  lemma {:induction false} RunFailsAtFirstBadLine(lines: seq<Line>)
    requires Run(lines).Failure?
    ensures var k := Run(lines).error.line;
      && k < |lines|
      && !Accepted(lines[k], SecNameAfter(lines[..k]).Bound?)
      && AllAccepted(lines, k)
      && (Run(lines).error.EmptyLine? <==> lines[k].Blank?)
      && (Run(lines).error.BadAssignment? <==> lines[k].Malformed?)
    decreases |lines|
  {
    var n := |lines| - 1;
    var front := lines[..n];
    if Run(front).Failure? {
      RunFailsAtFirstBadLine(front);
      var k := Run(front).error.line;
      assert forall i :: 0 <= i <= k ==> lines[i] == front[i] && lines[..i] == front[..i];
    } else {
      RunSucceedsIffAccepted(front);
      RunSecName(front);
      assert forall i :: 0 <= i < n ==> lines[i] == front[i] && lines[..i] == front[..i];
    }
  }

  /** A UUID is in the map exactly when some line assigns it. */
  lemma {:induction false} RunKeys(lines: seq<Line>, v: string)
    requires Run(lines).Success?
    ensures v in Run(lines).value.remotes <==> exists i :: 0 <= i < |lines| && AssignsUuid(lines[i], v)
    decreases |lines|
  {
    if |lines| > 0 {
      var n := |lines| - 1;
      var front := lines[..n];
      RunKeys(front, v);
      if exists i :: 0 <= i < n && AssignsUuid(front[i], v) {
        var i :| 0 <= i < n && AssignsUuid(front[i], v);
        assert lines[i] == front[i];
      }
      if exists i :: 0 <= i < |lines| && AssignsUuid(lines[i], v) {
        var i :| 0 <= i < |lines| && AssignsUuid(lines[i], v);
        if i < n {
          assert front[i] == lines[i];
        }
      }
    }
  }

  /** The last line assigning a UUID decides its remote name: the subsection
      of the header before that line. Earlier assignments are overwritten. */
  lemma {:induction false} RunLastWins(lines: seq<Line>, i: nat, v: string)
    requires Run(lines).Success?
    requires i < |lines| && AssignsUuid(lines[i], v)
    requires forall j :: i < j < |lines| ==> !AssignsUuid(lines[j], v)
    ensures SecNameAfter(lines[..i]).Bound?
    ensures v in Run(lines).value.remotes
    ensures Run(lines).value.remotes[v] == SecNameAfter(lines[..i]).name
    decreases |lines|
  {
    var n := |lines| - 1;
    var front := lines[..n];
    if i == n {
      RunSecName(front);
    } else {
      RunLastWins(front, i, v);
      assert front[..i] == lines[..i];
    }
  }

  /** The same facts for the lines of the file as read: the first line that
      raises decides the error, an empty line raises `EmptyLine`, a line
      without exactly one `=` raises `BadAssignment`, and an `annex-uuid`
      line before any header raises `UnboundSection`. */
  lemma ParseGitConfigError(raws: seq<string>)
    requires ParseGitConfig(raws).Failure?
    ensures ParseGitConfig(raws).error.line < |raws|
    ensures var e := ParseGitConfig(raws).error;
      var lines, l := ClassifyAll(raws), RStrip(raws[e.line]);
      && AllAccepted(lines, e.line)
      && !Accepted(lines[e.line], SecNameAfter(lines[..e.line]).Bound?)
      && (e.EmptyLine? <==> l == "")
      && (e.BadAssignment? <==> l != "" && l[0] != '[' && Count(l, '=') != 1)
      && (e.UnboundSection? <==> lines[e.line].Assignment? && lines[e.line].key == UuidKey)
      && (e.UnboundSection? ==> SecNameAfter(lines[..e.line]) == Unbound)
  {
    var lines := ClassifyAll(raws);
    RunFailsAtFirstBadLine(lines);
    var k := Run(lines).error.line;
    assert lines[k] == Classify(raws[k]);
    ClassifyMeaning(raws[k]);
  }

  /** A UUID is in the map `parse_git_config()` builds exactly when some
      line of the file assigns it to `annex-uuid`. */
  lemma ParseGitConfigKeys(raws: seq<string>, v: string)
    requires ParseGitConfig(raws).Success?
    ensures v in ParseGitConfig(raws).value <==> exists i :: 0 <= i < |raws| && AssignsUuid(Classify(raws[i]), v)
  {
    var lines := ClassifyAll(raws);
    RunKeys(lines, v);
    assert forall i :: 0 <= i < |raws| ==> lines[i] == Classify(raws[i]);
  }

  /** In the map `parse_git_config()` builds, a UUID is mapped to the
      subsection name of the header above the last line that assigns it. */
  lemma ParseGitConfigLastWins(raws: seq<string>, i: nat, v: string)
    requires ParseGitConfig(raws).Success?
    requires i < |raws| && AssignsUuid(Classify(raws[i]), v)
    requires forall j :: i < j < |raws| ==> !AssignsUuid(Classify(raws[j]), v)
    ensures SecNameAfter(ClassifyAll(raws)[..i]).Bound?
    ensures v in ParseGitConfig(raws).value
    ensures ParseGitConfig(raws).value[v] == SecNameAfter(ClassifyAll(raws)[..i]).name
  {
    var lines := ClassifyAll(raws);
    assert forall j :: 0 <= j < |raws| ==> lines[j] == Classify(raws[j]);
    RunLastWins(lines, i, v);
  }

  /** A header line `[section name]`, followed by any trailing white space
      such as its newline, names `section`, and its subsection is `name`
      with surrounding quotes removed. */
  lemma HeaderWithName(raw: string, section: string, name: string)
    requires ' ' !in section
    requires RStrip(raw) == "[" + section + " " + name + "]"
    ensures Classify(raw) == Header(section, Some(StripQuotes(name)))
  {
    var inner := section + [' '] + name;
    BracketsInner(RStrip(raw), inner);
    SplitOnceAt(section, ' ', name);
  }

  /** A one-word header `[section]`, followed by any trailing white space,
      has no subsection name. */
  lemma HeaderWithoutName(raw: string, section: string)
    requires ' ' !in section
    requires RStrip(raw) == "[" + section + "]"
    ensures Classify(raw) == Header(section, None)
  {
    BracketsInner(RStrip(raw), section);
  }

  /** `l[1:-1]` of a bracketed text is the text inside. */
  lemma BracketsInner(l: string, inner: string)
    requires l == "[" + inner + "]"
    ensures Slice(l, 1, -1) == inner
  {
    assert l[1..|l| - 1] == inner;
  }
}

=== FILE: keypath.dfy ===
/** Where a key's content lives (`anx_key_hash` and `anx_key_path` in
    git-pynex.py): `<root>/.git/annex/objects/<h[0:3]>/<h[3:6]>/<key>`, `h`
    being the MD5 hex digest of the key.

    MD5 is not modelled: it is the parameter `md5hex`, standing for
    `hashlib.md5(key.encode()).hexdigest()`. The repository root, a global in
    the source, is the parameter `root`. */
module KeyPath {
  import opened Wrappers
  import opened PyStr
  import AnnexKey

  const ObjectsDir: string := "/.git/annex/objects/"

  /** `md5hex` behaves like `hexdigest()`: 32 lower-case hexadecimal
      characters for every input. */
  ghost predicate IsMd5Hex(md5hex: string -> string) {
    forall s :: |md5hex(s)| == 32 && IsLowerHex(md5hex(s))
  }

  /** `anx_key_hash(key)` */
  function KeyHash(md5hex: string -> string, key: string): (h: string)
    ensures IsMd5Hex(md5hex) ==> |h| == 32 && IsLowerHex(h)
  {
    md5hex(key)
  }

  /** `h[0:3] + "/" + h[3:6] + "/"`, with Python's clamped slicing. */
  function BucketDirs(h: string): string {
    Slice(h, 0, 3) + "/" + Slice(h, 3, 6) + "/"
  }

  /** `anx_key_path(key)`: the key, once, below two three-character buckets. */
  function ObjectPath(root: string, key: string, md5hex: string -> string): (path: string)
    ensures |path| > |key| && path[|path| - |key| - 1..] == "/" + key
    ensures |root + ObjectsDir| <= |path| && path[..|root + ObjectsDir|] == root + ObjectsDir
  {
    var buckets := BucketDirs(KeyHash(md5hex, key));
    assert (root + ObjectsDir) + (buckets + key) == root + ObjectsDir + buckets + key;
    assert (buckets + key)[|buckets| - 1..] == "/" + key;
    root + ObjectsDir + buckets + key
  }

  /** The offset of the first bucket in an object path below `root`. */
  function BucketOffset(root: string): nat {
    |root + ObjectsDir|
  }

  /** With a real MD5, both buckets are three hexadecimal characters, taken
      from the start of the key's hash, and the key follows them. */
  lemma ObjectPathShape(root: string, key: string, md5hex: string -> string)
    requires IsMd5Hex(md5hex)
    ensures var path, p, h := ObjectPath(root, key, md5hex), BucketOffset(root), md5hex(key);
      && |path| == p + 8 + |key|
      && path[p..p + 3] == h[0..3] && path[p + 3] == '/'
      && path[p + 4..p + 7] == h[3..6] && path[p + 7] == '/'
      && path[p + 8..] == key
      && IsLowerHex(path[p..p + 3]) && IsLowerHex(path[p + 4..p + 7])
  {
    var h := md5hex(key);
    var buckets := BucketDirs(h);
    assert |h| == 32 && IsLowerHex(h);
    assert buckets == h[0..3] + "/" + h[3..6] + "/";
    var path := ObjectPath(root, key, md5hex);
    var p := BucketOffset(root);
    assert path == (root + ObjectsDir) + (buckets + key);
    assert path[p..] == buckets + key;
    assert path[p..][0..3] == h[0..3];
    assert path[p..][4..7] == h[3..6];
  }

  /** The object path spelled out from the first six hexadecimal digits of
      the key's hash. */
  lemma ObjectPathOfHashPrefix(root: string, key: string, md5hex: string -> string, a: string, b: string)
    requires IsMd5Hex(md5hex)
    requires md5hex(key)[0..3] == a && md5hex(key)[3..6] == b
    ensures ObjectPath(root, key, md5hex) == root + ObjectsDir + a + "/" + b + "/" + key
  {
    assert |md5hex(key)| == 32;
  }

  /** The SHA-256 digest of the 15-byte `file2.txt` of the repository's test
      suite. */
  const File2Digest: string := "2e57e969394ef19ad8af99d18af903de0e5fa3e09dda9818b1782a7e7e0befc0"

  /** The key of that `file2.txt`, `SHA256E-s15--<digest>.txt`, and its
      location when the MD5 of the key starts with `f5a2c8`, the bucket the
      test suite expects. */
  lemma ObjectPathExample(digest: string, md5hex: string -> string)
    requires digest == File2Digest
    requires IsMd5Hex(md5hex)
    requires md5hex(AnnexKey.Key("file2.txt", 15, digest))[0..6] == "f5a" + "2c8"
    ensures AnnexKey.Key("file2.txt", 15, digest) == AnnexKey.KeyPrefix + "15" + "--" + digest + "." + "txt"
    ensures ObjectPath(".", AnnexKey.Key("file2.txt", 15, digest), md5hex)
         == "." + ObjectsDir + "f5a" + "/" + "2c8" + "/" + AnnexKey.Key("file2.txt", 15, digest)
  {
    var key := AnnexKey.Key("file2.txt", 15, digest);
    AnnexKey.ExtensionExampleOneDot();
    DecimalFifteen();
    KeyText("file2.txt", 15, digest, "txt", "15", key);
    var h := md5hex(key);
    SplitSix(h, "f5a", "2c8");
    ObjectPathOfHashPrefix(".", key, md5hex, "f5a", "2c8");
  }

  lemma DecimalFifteen()
    ensures Decimal(15) == "15"
  {
    assert Decimal(1) == "1" && Decimal(5) == "5";
  }

  lemma SplitSix(h: string, a: string, b: string)
    requires 6 <= |h| && |a| == 3 && |b| == 3 && h[0..6] == a + b
    ensures h[0..3] == a && h[3..6] == b
  {
    assert h[0..3] == h[0..6][0..3] && h[3..6] == h[0..6][3..6];
  }

  /** A key spelled out from its parts. */
  lemma KeyText(name: string, size: nat, digest: string, ext: string, dec: string, key: string)
    requires AnnexKey.Extension(name) == ext && Decimal(size) == dec
    requires key == AnnexKey.Key(name, size, digest)
    ensures key == AnnexKey.KeyPrefix + dec + "--" + digest + "." + ext
  {
  }

  /** Reads the key back out of an object path below `root`. */
  function KeyOfObjectPath(root: string, path: string): (r: Option<string>)
    ensures r.Some? ==> |r.value| + 8 + BucketOffset(root) == |path|
  {
    var p := BucketOffset(root);
    if |path| < p + 8 || path[..p] != root + ObjectsDir then None
    else if path[p + 3] != '/' || path[p + 7] != '/' then None
    else if !IsLowerHex(path[p..p + 3]) || !IsLowerHex(path[p + 4..p + 7]) then None
    else Some(path[p + 8..])
  }

  /** The key is recovered from its object path. */
  lemma KeyOfObjectPathRoundTrip(root: string, key: string, md5hex: string -> string)
    requires IsMd5Hex(md5hex)
    ensures KeyOfObjectPath(root, ObjectPath(root, key, md5hex)) == Some(key)
  {
    ObjectPathShape(root, key, md5hex);
  }

  /** A path is the object path of `key` exactly when it reads back as `key`
      and its buckets are the first six characters of the key's hash. */
  lemma ObjectPathExactly(root: string, path: string, key: string, md5hex: string -> string)
    requires IsMd5Hex(md5hex)
    ensures var p := BucketOffset(root);
      ObjectPath(root, key, md5hex) == path <==>
        && KeyOfObjectPath(root, path) == Some(key)
        && path[p..p + 3] + path[p + 4..p + 7] == md5hex(key)[0..6]
  {
    var p := BucketOffset(root);
    var h := md5hex(key);
    ObjectPathShape(root, key, md5hex);
    if ObjectPath(root, key, md5hex) == path {
      assert h[0..6] == h[0..3] + h[3..6];
    }
    if KeyOfObjectPath(root, path) == Some(key) && path[p..p + 3] + path[p + 4..p + 7] == h[0..6] {
      var q := ObjectPath(root, key, md5hex);
      assert |q| == |path|;
      assert path[p..p + 3] == h[0..3] by {
        assert (path[p..p + 3] + path[p + 4..p + 7])[0..3] == path[p..p + 3];
      }
      assert path[p + 4..p + 7] == h[3..6] by {
        assert (path[p..p + 3] + path[p + 4..p + 7])[3..6] == path[p + 4..p + 7];
      }
      assert path == path[..p] + path[p..p + 3] + [path[p + 3]] + path[p + 4..p + 7] + [path[p + 7]] + path[p + 8..];
      assert q == q[..p] + q[p..p + 3] + [q[p + 3]] + q[p + 4..p + 7] + [q[p + 7]] + q[p + 8..];
    }
  }

  /** Distinct keys never share a content location. */
  lemma ObjectPathInjective(root: string, k1: string, k2: string, md5hex: string -> string)
    requires IsMd5Hex(md5hex)
    requires ObjectPath(root, k1, md5hex) == ObjectPath(root, k2, md5hex)
    ensures k1 == k2
  {
    KeyOfObjectPathRoundTrip(root, k1, md5hex);
    KeyOfObjectPathRoundTrip(root, k2, md5hex);
  }
}

=== FILE: pystr.dfy ===
/** The Python `str` operations the tool relies on, for single-character
    separators: `rstrip`/`strip`, `split`, `split(sep, 1)`, `rsplit(sep, n)`,
    `sep.join`, slicing with clamped and negative indices, and `%d`. */
module PyStr {

  /** Python's `str.isspace()` for one character (the characters
      `str.strip()` and `str.rstrip()` remove when called without an argument). */
  predicate IsSpace(c: char) {
    || c == ' '
    || '\t' <= c <= '\r'
    || '\U{1C}' <= c <= '\U{1F}'
    || c == '\U{85}' || c == '\U{A0}' || c == '\U{1680}'
    || '\U{2000}' <= c <= '\U{200A}'
    || c == '\U{2028}' || c == '\U{2029}' || c == '\U{202F}' || c == '\U{205F}'
    || c == '\U{3000}'
  }

  predicate IsQuote(c: char) {
    c == '"'
  }

  function Min(a: nat, b: nat): nat {
    if a < b then a else b
  }

  // ---------------------------------------------------------------------
  // Stripping

  /** Drops the longest suffix whose characters all satisfy `drop`. */
  function TrimEnd(s: string, drop: char -> bool): (r: string)
    ensures |r| <= |s| && r == s[..|r|]
    ensures forall i :: |r| <= i < |s| ==> drop(s[i])
    ensures |r| == 0 || !drop(r[|r| - 1])
    decreases |s|
  {
    if |s| > 0 && drop(s[|s| - 1]) then TrimEnd(s[..|s| - 1], drop) else s
  }

  /** Drops the longest prefix whose characters all satisfy `drop`. */
  function TrimStart(s: string, drop: char -> bool): (r: string)
    ensures |r| <= |s| && r == s[|s| - |r|..]
    ensures forall i :: 0 <= i < |s| - |r| ==> drop(s[i])
    ensures |r| == 0 || !drop(r[0])
    decreases |s|
  {
    if |s| > 0 && drop(s[0]) then TrimStart(s[1..], drop) else s
  }

  /** `s.rstrip()` */
  function RStrip(s: string): string {
    TrimEnd(s, IsSpace)
  }

  /** `s.strip()` */
  function Strip(s: string): string {
    TrimStart(TrimEnd(s, IsSpace), IsSpace)
  }

  /** `s.strip('"')` */
  function StripQuotes(s: string): string {
    TrimStart(TrimEnd(s, IsQuote), IsQuote)
  }

  /** A string ending in a non-space character is left alone by `rstrip`. */
  lemma RStripNoTrailingSpace(s: string)
    requires |s| > 0 && !IsSpace(s[|s| - 1])
    ensures RStrip(s) == s
  {
  }

  /** `rstrip` removes trailing white space, such as the newline a line
      read from a file ends in, and nothing before it. */
  lemma {:induction false} RStripPadded(s: string, pad: string)
    requires |s| > 0 && !IsSpace(s[|s| - 1])
    requires forall i :: 0 <= i < |pad| ==> IsSpace(pad[i])
    ensures RStrip(s + pad) == s
    decreases |pad|
  {
    if |pad| == 0 {
      assert s + pad == s;
      RStripNoTrailingSpace(s);
    } else {
      var t := s + pad;
      assert t[..|t| - 1] == s + pad[..|pad| - 1];
      RStripPadded(s, pad[..|pad| - 1]);
    }
  }

  // ---------------------------------------------------------------------
  // Counting and searching

  /** `s.count(c)` */
  function Count(s: string, c: char): nat
    decreases |s|
  {
    if |s| == 0 then 0 else (if s[0] == c then 1 else 0) + Count(s[1..], c)
  }

  lemma {:induction false} CountConcat(a: string, b: string, c: char)
    ensures Count(a + b, c) == Count(a, c) + Count(b, c)
    decreases |a|
  {
    if |a| == 0 {
      assert a + b == b;
    } else {
      assert (a + b)[1..] == a[1..] + b;
      CountConcat(a[1..], b, c);
    }
  }

  lemma {:induction false} CountZero(s: string, c: char)
    ensures Count(s, c) == 0 <==> c !in s
    decreases |s|
  {
    if |s| > 0 {
      CountZero(s[1..], c);
      assert s == [s[0]] + s[1..];
    }
  }

  /** The count splits around any position of the string. */
  lemma CountAround(s: string, c: char, i: nat)
    requires i < |s|
    ensures Count(s, c) == Count(s[..i], c) + (if s[i] == c then 1 else 0) + Count(s[i + 1..], c)
  {
    assert s == s[..i] + s[i..];
    CountConcat(s[..i], s[i..], c);
    assert s[i..][1..] == s[i + 1..];
  }

  /** `s.index(c)`: the first position of `c`. */
  function IndexOf(s: string, c: char): (i: nat)
    requires c in s
    ensures i < |s| && s[i] == c && c !in s[..i]
    decreases |s|
  {
    if s[0] == c then 0
    else
      assert c in s[1..] by {
        var k :| 0 <= k < |s| && s[k] == c;
        assert s[1..][k - 1] == c;
      }
      var j := IndexOf(s[1..], c);
      assert s[..j + 1] == [s[0]] + s[1..][..j];
      j + 1
  }

  /** `s.rindex(c)`: the last position of `c`. */
  function LastIndexOf(s: string, c: char): (i: nat)
    requires c in s
    ensures i < |s| && s[i] == c && c !in s[i + 1..]
    decreases |s|
  {
    if s[|s| - 1] == c then |s| - 1
    else
      assert c in s[..|s| - 1] by {
        var k :| 0 <= k < |s| && s[k] == c;
        assert s[..|s| - 1][k] == c;
      }
      var j := LastIndexOf(s[..|s| - 1], c);
      assert s[j + 1..] == s[..|s| - 1][j + 1..] + [s[|s| - 1]];
      j
  }

  /** A position that holds `c` with no `c` before it is the first one. */
  lemma IndexOfUnique(s: string, c: char, i: nat)
    requires i < |s| && s[i] == c && c !in s[..i]
    ensures IndexOf(s, c) == i
  {
  }

  /** A position that holds `c` with no `c` after it is the last one. */
  lemma LastIndexOfUnique(s: string, c: char, i: nat)
    requires i < |s| && s[i] == c && c !in s[i + 1..]
    ensures LastIndexOf(s, c) == i
  {
  }

  // ---------------------------------------------------------------------
  // Joining and splitting

  /** `c.join(parts)` */
  function Join(c: char, parts: seq<string>): string
    decreases |parts|
  {
    if |parts| == 0 then ""
    else if |parts| == 1 then parts[0]
    else parts[0] + [c] + Join(c, parts[1..])
  }

  lemma {:induction false} JoinSnoc(c: char, parts: seq<string>, x: string)
    requires |parts| > 0
    ensures Join(c, parts + [x]) == Join(c, parts) + [c] + x
    decreases |parts|
  {
    if |parts| > 1 {
      assert (parts + [x])[1..] == parts[1..] + [x];
      JoinSnoc(c, parts[1..], x);
    } else {
      assert (parts + [x])[1..] == [x];
    }
  }

  /** Joining pieces free of the separator puts exactly one separator
      between consecutive pieces. */
  lemma {:induction false} JoinCount(c: char, parts: seq<string>)
    requires |parts| > 0
    requires forall k :: 0 <= k < |parts| ==> c !in parts[k]
    ensures Count(Join(c, parts), c) == |parts| - 1
    decreases |parts|
  {
    CountZero(parts[0], c);
    if |parts| > 1 {
      JoinCount(c, parts[1..]);
      CountConcat(parts[0], [c], c);
      CountConcat(parts[0] + [c], Join(c, parts[1..]), c);
    }
  }

  /** `s.split(c)`: all pieces between occurrences of `c`. */
  function Split(s: string, c: char): (r: seq<string>)
    ensures |r| >= 1
    decreases |s|
  {
    if c !in s then [s]
    else
      var i := IndexOf(s, c);
      [s[..i]] + Split(s[i + 1..], c)
  }

  /** `split` cuts at every `c`: one piece more than there are `c`s, none of
      them holding `c`, and joining them back gives `s`. */
  lemma {:induction false} SplitFacts(s: string, c: char)
    ensures |Split(s, c)| == Count(s, c) + 1
    ensures forall k :: 0 <= k < |Split(s, c)| ==> c !in Split(s, c)[k]
    ensures Join(c, Split(s, c)) == s
    decreases |s|
  {
    if c !in s {
      CountZero(s, c);
    } else {
      var i := IndexOf(s, c);
      SplitFacts(s[i + 1..], c);
      SplitConsFacts(s, c, i, Split(s[i + 1..], c), Split(s, c));
    }
  }

  /** The facts of `SplitFacts` carry over from the pieces after the first
      separator to the whole string. */
  lemma SplitConsFacts(s: string, c: char, i: nat, rest: seq<string>, r: seq<string>)
    requires i < |s| && s[i] == c && c !in s[..i]
    requires r == [s[..i]] + rest
    requires |rest| == Count(s[i + 1..], c) + 1
    requires forall k :: 0 <= k < |rest| ==> c !in rest[k]
    requires Join(c, rest) == s[i + 1..]
    ensures |r| == Count(s, c) + 1
    ensures forall k :: 0 <= k < |r| ==> c !in r[k]
    ensures Join(c, r) == s
  {
    SplitConsCount(s, c, i, |rest|, |r|);
    SplitConsJoin(s, c, i, rest, r);
    assert forall k :: 1 <= k < |r| ==> r[k] == rest[k - 1];
  }

  lemma SplitConsCount(s: string, c: char, i: nat, m: nat, n: nat)
    requires i < |s| && s[i] == c && c !in s[..i]
    requires m == Count(s[i + 1..], c) + 1 && n == m + 1
    ensures n == Count(s, c) + 1
  {
    CountAround(s, c, i);
    CountZero(s[..i], c);
  }

  lemma SplitConsJoin(s: string, c: char, i: nat, rest: seq<string>, r: seq<string>)
    requires i < |s| && s[i] == c
    requires r == [s[..i]] + rest && |rest| >= 1
    requires Join(c, rest) == s[i + 1..]
    ensures Join(c, r) == s
  {
    assert r[1..] == rest;
    assert Join(c, r) == s[..i] + [c] + s[i + 1..];
    CutAt(s, i);
  }

  lemma SplitLength(s: string, c: char)
    ensures |Split(s, c)| == Count(s, c) + 1
  {
    SplitFacts(s, c);
  }

  lemma {:induction false} SplitSnoc(a: string, b: string, c: char)
    requires c !in b
    ensures Split(a + [c] + b, c) == Split(a, c) + [b]
    decreases |a|
  {
    if c in a {
      var j := IndexOf(a, c);
      var t := a[j + 1..];
      SnocFirstCut(a, b, c, j);
      SplitSnoc(t, b, c);
      SplitAtFirst(a + [c] + b, c);
      SplitAtFirst(a, c);
      ConsSnoc(Split(a + [c] + b, c), Split(a, c), Split(t, c), a[..j], b);
    } else {
      SplitTwo(a, b, c);
    }
  }

  /** Appending `c` and more text leaves the first `c` of `a` where it was. */
  lemma SnocFirstCut(a: string, b: string, c: char, j: nat)
    requires c in a && j == IndexOf(a, c)
    ensures c in a + [c] + b && IndexOf(a + [c] + b, c) == j
    ensures (a + [c] + b)[..j] == a[..j] && (a + [c] + b)[j + 1..] == a[j + 1..] + [c] + b
  {
    var s := a + [c] + b;
    assert s[..j] == a[..j];
    IndexOfUnique(s, c, j);
  }

  lemma ConsSnoc(whole: seq<string>, front: seq<string>, tail: seq<string>, first: string, last: string)
    requires whole == [first] + (tail + [last]) && front == [first] + tail
    ensures whole == front + [last]
  {
  }

  /** One `c` between two texts without it: `split` gives the two texts. */
  lemma SplitTwo(a: string, b: string, c: char)
    requires c !in a && c !in b
    ensures Split(a + [c] + b, c) == [a, b] && Split(a, c) == [a]
  {
    var s := a + [c] + b;
    assert IndexOf(s, c) == |a| by {
      assert s[..|a|] == a;
      IndexOfUnique(s, c, |a|);
    }
    assert s[..|a|] == a && s[|a| + 1..] == b;
    SplitAtFirst(s, c);
    SplitAtFirst(a, c);
    SplitAtFirst(b, c);
  }

  /** `split` cuts the first piece off at the first `c`. */
  lemma SplitAtFirst(s: string, c: char)
    ensures c !in s ==> Split(s, c) == [s]
    ensures c in s ==> Split(s, c) == [s[..IndexOf(s, c)]] + Split(s[IndexOf(s, c) + 1..], c)
  {
  }

  /** With exactly one `c`, `split` cuts the string in two around it. */
  lemma SplitOne(s: string, c: char)
    requires Count(s, c) == 1
    ensures c in s
    ensures Split(s, c) == [s[..IndexOf(s, c)], s[IndexOf(s, c) + 1..]]
  {
    CountZero(s, c);
    var i := IndexOf(s, c);
    CountAround(s, c, i);
    CountZero(s[..i], c);
    CountZero(s[i + 1..], c);
  }

  /** `s.split(c, 1)`: one or two pieces, cut at the first `c`. */
  function SplitOnce(s: string, c: char): (r: seq<string>)
    ensures |r| == 1 || |r| == 2
    ensures |r| == 1 <==> c !in s
    ensures |r| == 1 ==> r[0] == s
    ensures |r| == 2 ==> s == r[0] + [c] + r[1] && c !in r[0]
  {
    if c !in s then [s]
    else
      var i := IndexOf(s, c);
      assert s == s[..i] + [c] + s[i + 1..];
      [s[..i], s[i + 1..]]
  }

  /** `split(c, 1)` cuts at the first `c`. */
  lemma SplitOnceAt(a: string, c: char, b: string)
    requires c !in a
    ensures SplitOnce(a + [c] + b, c) == [a, b]
  {
    var s := a + [c] + b;
    assert s[..|a|] == a;
    IndexOfUnique(s, c, |a|);
    assert s[|a| + 1..] == b;
  }

  /** `s.rsplit(c, n)`: at most `n` cuts, taken at the last occurrences of `c`. */
  function RSplit(s: string, c: char, n: nat): (r: seq<string>)
    ensures |r| == Min(n, Count(s, c)) + 1
    ensures Join(c, r) == s
    ensures forall k :: 1 <= k < |r| ==> c !in r[k]
    decreases n
  {
    if n == 0 || c !in s then
      CountZero(s, c);
      [s]
    else
      var i := LastIndexOf(s, c);
      var front := RSplit(s[..i], c, n - 1);
      RSplitSnocFacts(s, c, i, n, front, front + [s[i + 1..]]);
      front + [s[i + 1..]]
  }

  /** The facts of `RSplit` carry over from the pieces before the last
      separator to the whole string. */
  lemma RSplitSnocFacts(s: string, c: char, i: nat, n: nat, front: seq<string>, r: seq<string>)
    requires i < |s| && s[i] == c && c !in s[i + 1..] && n >= 1
    requires |front| == Min(n - 1, Count(s[..i], c)) + 1
    requires Join(c, front) == s[..i]
    requires forall k :: 1 <= k < |front| ==> c !in front[k]
    requires r == front + [s[i + 1..]]
    ensures |r| == Min(n, Count(s, c)) + 1
    ensures Join(c, r) == s
    ensures forall k :: 1 <= k < |r| ==> c !in r[k]
  {
    assert Count(s, c) == Count(s[..i], c) + 1 by {
      CountAround(s, c, i);
      CountZero(s[i + 1..], c);
    }
    assert Join(c, r) == s by {
      JoinSnoc(c, front, s[i + 1..]);
      CutAt(s, i);
    }
  }

  /** `rsplit(c, 1)` cuts at the last `c`. */
  lemma RSplitOnceAt(a: string, c: char, b: string)
    requires c !in b
    ensures RSplit(a + [c] + b, c, 1) == [a, b]
  {
    var s := a + [c] + b;
    assert s[|a| + 1..] == b;
    LastIndexOfUnique(s, c, |a|);
    assert s[..|a|] == a;
    assert RSplit(a, c, 0) == [a];
  }

  /** The pieces `rsplit` cuts off are the last pieces of the full split. */
  lemma {:induction false} RSplitTail(s: string, c: char, n: nat)
    ensures RSplit(s, c, n)[1..] == Last(Split(s, c), Min(n, Count(s, c)))
    decreases n, 1
  {
    if n == 0 || c !in s {
      CountZero(s, c);
      assert Min(n, Count(s, c)) == 0;
      assert RSplit(s, c, n) == [s];
    } else {
      RSplitTailStep(s, c, n, n - 1);
    }
  }

  /** The inductive step of `RSplitTail`: one more cut at the last `c`. */
  lemma {:induction false} RSplitTailStep(s: string, c: char, n: nat, k: nat)
    requires c in s && n == k + 1
    ensures RSplit(s, c, n)[1..] == Last(Split(s, c), Min(n, Count(s, c)))
    decreases n, 0
  {
    var i := LastIndexOf(s, c);
    var head, tail := s[..i], s[i + 1..];
    var m := Min(k, Count(head, c));
    var front := RSplit(head, c, k);
    assert RSplit(s, c, n)[1..] == front[1..] + [tail] by {
      assert RSplit(s, c, n) == front + [tail];
      assert (front + [tail])[1..] == front[1..] + [tail];
    }
    assert Split(s, c) == Split(head, c) + [tail] by {
      CutAt(s, i);
      SplitSnoc(head, tail, c);
    }
    assert Min(n, Count(s, c)) == m + 1 by {
      CountAround(s, c, i);
      CountZero(tail, c);
    }
    assert front[1..] == Last(Split(head, c), m) by {
      RSplitTail(head, c, k);
    }
    assert Last(Split(head, c) + [tail], m + 1) == Last(Split(head, c), m) + [tail] by {
      SplitLength(head, c);
      LastSnoc(Split(head, c), tail, m);
    }
    TailStepCombine(RSplit(s, c, n), Split(s, c), front, Split(head, c), tail, m, Min(n, Count(s, c)));
  }

  lemma TailStepCombine(rs: seq<string>, sp: seq<string>, front: seq<string>, headSplit: seq<string>,
                        tail: string, m: nat, total: nat)
    requires |rs| >= 1 && |front| >= 1
    requires rs[1..] == front[1..] + [tail] && sp == headSplit + [tail] && total == m + 1
    requires front[1..] == Last(headSplit, m)
    requires Last(headSplit + [tail], m + 1) == Last(headSplit, m) + [tail]
    ensures rs[1..] == Last(sp, total)
  {
  }

  lemma CutAt(s: string, i: nat)
    requires i < |s|
    ensures s == s[..i] + [s[i]] + s[i + 1..]
  {
  }

  /** `xs[-k:]` for `k > 0`: the last `k` elements, or all of them when
      there are fewer. */
  function Last<T>(xs: seq<T>, k: nat): seq<T> {
    if k <= |xs| then xs[|xs| - k..] else xs
  }

  lemma LastSnoc<T>(xs: seq<T>, x: T, k: nat)
    requires k <= |xs|
    ensures Last(xs + [x], k + 1) == Last(xs, k) + [x]
  {
  }

  // ---------------------------------------------------------------------
  // Slicing

  function Clamp(x: int, n: nat): (r: nat)
    ensures r <= n
  {
    if x < 0 then 0 else if x > n then n else x
  }

  /** `s[lo:hi]`: a negative bound counts from the end, out-of-range bounds
      are clamped, and an empty range gives the empty string. */
  function Slice(s: string, lo: int, hi: int): (r: string)
    ensures 0 <= lo <= hi <= |s| ==> r == s[lo..hi]
    ensures 0 <= lo && hi < 0 && lo <= |s| + hi ==> r == s[lo..|s| + hi]
    ensures 0 <= lo && hi < 0 && lo > |s| + hi ==> r == ""
    ensures |r| <= |s|
  {
    var a := Clamp(if lo < 0 then lo + |s| else lo, |s|);
    var b := Clamp(if hi < 0 then hi + |s| else hi, |s|);
    if a < b then s[a..b] else ""
  }

  /** `s[:-1]` drops the final character, and leaves the empty string alone. */
  lemma DropLast(s: string)
    ensures |s| == 0 ==> Slice(s, 0, -1) == ""
    ensures |s| > 0 ==> Slice(s, 0, -1) + [s[|s| - 1]] == s
  {
    if |s| > 0 {
      assert s == s[..|s| - 1] + [s[|s| - 1]];
    }
  }

  // ---------------------------------------------------------------------
  // Decimal and hexadecimal text

  predicate IsDigit(c: char) {
    '0' <= c <= '9'
  }

  predicate IsDigits(s: string) {
    forall i :: 0 <= i < |s| ==> IsDigit(s[i])
  }

  /** Lower-case hexadecimal, as `hexdigest()` produces. */
  predicate IsLowerHex(s: string) {
    forall i :: 0 <= i < |s| ==> IsDigit(s[i]) || 'a' <= s[i] <= 'f'
  }

  /** The length of the run of decimal digits that starts `s`. */
  function DigitRun(s: string): (n: nat)
    ensures n <= |s| && IsDigits(s[..n])
    ensures n == |s| || !IsDigit(s[n])
    decreases |s|
  {
    if |s| == 0 || !IsDigit(s[0]) then 0
    else
      var n := 1 + DigitRun(s[1..]);
      assert s[..n] == [s[0]] + s[1..][..n - 1];
      n
  }

  /** A digit run followed by a non-digit (or the end) is the whole run. */
  lemma {:induction false} DigitRunUnique(s: string, m: nat)
    requires m <= |s| && IsDigits(s[..m])
    requires m == |s| || !IsDigit(s[m])
    ensures DigitRun(s) == m
    decreases m
  {
    if m > 0 {
      var k := m - 1;
      assert IsDigit(s[0]) by { assert s[..m][0] == s[0]; }
      assert s[1..][..k] == s[..m][1..];
      DigitRunUnique(s[1..], k);
    }
  }

  /** Decimal text without superfluous leading zeros, as `%d` produces. */
  predicate IsCanonicalDecimal(s: string) {
    |s| > 0 && IsDigits(s) && (s[0] != '0' || |s| == 1)
  }

  function DigitChar(d: nat): (c: char)
    requires d < 10
    ensures IsDigit(c)
  {
    (('0' as int) + d) as char
  }

  function DigitValue(c: char): (d: nat)
    requires IsDigit(c)
    ensures d < 10 && DigitChar(d) == c
  {
    (c as int) - ('0' as int)
  }

  /** `"%d" % n` for a non-negative `n`. */
  function Decimal(n: nat): (r: string)
    ensures IsCanonicalDecimal(r)
  {
    if n < 10 then [DigitChar(n)] else Decimal(n / 10) + [DigitChar(n % 10)]
  }

  /** The number a string of decimal digits denotes. */
  function DecimalValue(s: string): nat
    requires IsDigits(s)
  {
    if |s| == 0 then 0 else DecimalValue(s[..|s| - 1]) * 10 + DigitValue(s[|s| - 1])
  }

  lemma {:induction false} DecimalRoundTrip(n: nat)
    ensures DecimalValue(Decimal(n)) == n
  {
    if n >= 10 {
      var q, d := n / 10, n % 10;
      DecimalRoundTrip(q);
      var r := Decimal(n);
      assert r == Decimal(q) + [DigitChar(d)];
      assert r[..|r| - 1] == Decimal(q);
      assert DecimalValue(r) == q * 10 + d;
    }
  }

  /** Appending a digit `d` to `v` and taking it off again. */
  lemma ShiftDigit(v: nat, d: nat)
    requires d < 10
    ensures (v * 10 + d) / 10 == v && (v * 10 + d) % 10 == d
  {
  }

  lemma {:induction false} DecimalValueLowerBound(s: string)
    requires IsDigits(s) && |s| > 0 && s[0] != '0'
    ensures DecimalValue(s) >= 1
    ensures |s| > 1 ==> DecimalValue(s) >= 10
    decreases |s|
  {
    if |s| > 1 {
      DecimalValueLowerBound(s[..|s| - 1]);
    }
  }

  /** Canonical decimal text is exactly what `%d` prints for its value. */
  lemma {:induction false} DecimalCanonical(s: string)
    requires IsCanonicalDecimal(s)
    ensures Decimal(DecimalValue(s)) == s
    decreases |s|
  {
    if |s| > 1 {
      var p := s[..|s| - 1];
      var v, d := DecimalValue(p), DigitValue(s[|s| - 1]);
      assert DecimalValue(s) == v * 10 + d;
      DecimalValueLowerBound(s);
      ShiftDigit(v, d);
      assert IsCanonicalDecimal(p);
      DecimalCanonical(p);
      assert Decimal(v * 10 + d) == Decimal(v) + [DigitChar(d)];
      assert s == p + [s[|s| - 1]];
    }
  }
}

=== FILE: repos.dfy ===
/** The `repos` command of git-pynex.py (`cmd_repos`): one output row per
    line of the git-annex branch's `uuid.log`, each line being
    `<uuid> <description> timestamp=<seconds>s`, with the description
    annotated by ` [here]` for this repository and ` [git remote: <name>]`
    for a UUID found in `.git/config`.

    The repository's own UUID (`git config annex.uuid`), the checkout of
    `uuid.log` and the conversion of the seconds to local time
    (`float`, `time.localtime` and `time.strftime`) are not modelled: the
    first is the parameter `here`, the file's lines are an input, and the
    conversion is the parameter `localTime`, a map from each seconds text
    that converts to the time it prints as; a text not in the map stands
    for the exception `float` raises on text that is not a number. */
module Repos {
  import opened Wrappers
  import opened PyStr
  import GitConfig

  /** A `uuid.log` line cut into its three fields; `stamp` is the last word,
      `timestamp=<seconds>s`. */
  datatype UuidLogEntry = UuidLogEntry(uuid: string, desc: string, stamp: string)

  /** The exceptions one `uuid.log` line can raise. */
  datatype LogLineError =
    | NoDescription     // `uuid, l = l.split(" ", 1)`: the line has no space
    | NoStamp           // `desc, tstamp = l.rsplit(" ", 1)`: only one space
    | NoStampValue      // `tstamp.split("=", 1)[1]`: the last word has no `=`
    | BadStamp          // `float(tstamp)`: not a number

  /** What one line of `uuid.log` looks like. */
  function UuidLogLine(uuid: string, desc: string, stamp: string): string {
    uuid + [' '] + (desc + [' '] + stamp)
  }

  /** `l = l.rstrip()`, `uuid, l = l.split(" ", 1)`, then
      `desc, tstamp = l.rsplit(" ", 1)`: a stripped line with two spaces or
      more is cut at its first and at its last space. */
  function ParseUuidLine(raw: string): (r: Result<UuidLogEntry, LogLineError>)
    ensures r.Success? ==>
      && RStrip(raw) == UuidLogLine(r.value.uuid, r.value.desc, r.value.stamp)
      && ' ' !in r.value.uuid && ' ' !in r.value.stamp
    ensures r == Failure(NoDescription) <==> Count(RStrip(raw), ' ') == 0
    ensures r == Failure(NoStamp) <==> Count(RStrip(raw), ' ') == 1
    ensures r.Failure? ==> r.error == NoDescription || r.error == NoStamp
  {
    SplitFieldsCounts(RStrip(raw));
    SplitFields(RStrip(raw))
  }

  /** `uuid, l = l.split(" ", 1)` then `desc, tstamp = l.rsplit(" ", 1)`. */
  function SplitFields(l: string): (r: Result<UuidLogEntry, LogLineError>)
    ensures r.Success? ==>
      && l == UuidLogLine(r.value.uuid, r.value.desc, r.value.stamp)
      && ' ' !in r.value.uuid && ' ' !in r.value.stamp
    ensures r == Failure(NoDescription) <==> ' ' !in l
    ensures r == Failure(NoStamp) <==> ' ' in l && ' ' !in SplitOnce(l, ' ')[1]
    ensures r.Failure? ==> r.error == NoDescription || r.error == NoStamp
  {
    var first := SplitOnce(l, ' ');
    if |first| != 2 then
      Failure(NoDescription)
    else
      var uuid, rest := first[0], first[1];
      match SplitStamp(rest)
      case Failure(e) =>
        Failure(e)
      case Success(e) =>
        Success(UuidLogEntry(uuid, e.desc, e.stamp))
  }

  /** `desc, tstamp = l.rsplit(" ", 1)`: the description and the last word
      (the UUID field is left empty). */
  function SplitStamp(rest: string): (r: Result<UuidLogEntry, LogLineError>)
    ensures r.Success? ==> rest == r.value.desc + [' '] + r.value.stamp && ' ' !in r.value.stamp
    ensures r.Failure? ==> r.error == NoStamp && ' ' !in rest
  {
    var parts := RSplit(rest, ' ', 1);
    CountZero(rest, ' ');
    if |parts| != 2 then
      Failure(NoStamp)
    else
      assert rest == parts[0] + [' '] + parts[1];
      Success(UuidLogEntry("", parts[0], parts[1]))
  }

  /** The line has no space, exactly one, or two or more. */
  lemma SplitFieldsCounts(l: string)
    ensures SplitFields(l) == Failure(NoDescription) <==> Count(l, ' ') == 0
    ensures SplitFields(l) == Failure(NoStamp) <==> Count(l, ' ') == 1
  {
    CountZero(l, ' ');
    if ' ' in l {
      var first := SplitOnce(l, ' ');
      var uuid, rest := first[0], first[1];
      CountSeparated(uuid, ' ', rest);
      CountZero(uuid, ' ');
      CountZero(rest, ' ');
    }
  }

  /** Counting `c` across one `c` that joins two texts. */
  lemma CountSeparated(a: string, c: char, b: string)
    ensures Count(a + [c] + b, c) == Count(a, c) + 1 + Count(b, c)
  {
    CountConcat(a + [c], b, c);
    CountConcat(a, [c], c);
  }

  /** A line written as `uuid desc stamp`, with no space in the UUID or in
      the stamp and no trailing white space, is read back field by field. */
  lemma ParseUuidLineRoundTrip(uuid: string, desc: string, stamp: string)
    requires ' ' !in uuid && ' ' !in stamp
    requires |stamp| > 0 && !IsSpace(stamp[|stamp| - 1])
    ensures ParseUuidLine(UuidLogLine(uuid, desc, stamp)) == Success(UuidLogEntry(uuid, desc, stamp))
  {
    var line := UuidLogLine(uuid, desc, stamp);
    assert line[|line| - 1] == stamp[|stamp| - 1];
    RStripNoTrailingSpace(line);
    SplitFieldsOf(uuid, desc, stamp);
  }

  /** The three fields of a line are cut back out of it. */
  lemma SplitFieldsOf(uuid: string, desc: string, stamp: string)
    requires ' ' !in uuid && ' ' !in stamp
    ensures SplitFields(UuidLogLine(uuid, desc, stamp)) == Success(UuidLogEntry(uuid, desc, stamp))
  {
    var rest := desc + [' '] + stamp;
    SplitOnceAt(uuid, ' ', rest);
    RSplitOnceAt(desc, ' ', stamp);
  }

  /** `tstamp.split("=", 1)[1][:-1]`: the text after the first `=`, without
      its last character (the `s` git-annex writes after the seconds);
      `None` for the `IndexError` when there is no `=`. */
  function StampSeconds(stamp: string): (r: Option<string>)
    ensures r.Some? <==> '=' in stamp
    ensures r.Some? ==>
      var after := stamp[IndexOf(stamp, '=') + 1..];
      (|after| == 0 ==> r.value == "") && (|after| > 0 ==> r.value + [after[|after| - 1]] == after)
  {
    var parts := SplitOnce(stamp, '=');
    if |parts| < 2 then None
    else
      DropLast(parts[1]);
      Some(Slice(parts[1], 0, -1))
  }

  /** A stamp `key=<seconds>s` yields `<seconds>`. */
  lemma StampSecondsOf(key: string, seconds: string, unit: char)
    requires '=' !in key
    ensures StampSeconds(key + "=" + seconds + [unit]) == Some(seconds)
  {
    var stamp := key + "=" + seconds + [unit];
    assert stamp[..|key|] == key;
    IndexOfUnique(stamp, '=', |key|);
    assert stamp[|key| + 1..] == seconds + [unit];
  }

  /** `"%s" % name` where the name may be `None`. */
  function ShowName(name: Option<string>): string {
    match name
    case Some(s) => s
    case None => "None"
  }

  /** The description, followed by ` [here]` for this repository's UUID, or
      else by ` [git remote: <name>]` for a UUID of the annex-uuid map. */
  function Annotate(desc: string, uuid: string, here: string, remotes: map<string, Option<string>>): (r: string)
    ensures |r| >= |desc| && r[..|desc|] == desc
    ensures r == desc + " [here]" <==> uuid == here
    ensures r == desc <==> uuid != here && uuid !in remotes
    ensures uuid != here && uuid in remotes ==> r[|desc|..] == " [git remote: " + ShowName(remotes[uuid]) + "]"
  {
    if uuid == here then
      desc + " [here]"
    else if uuid in remotes then
      var r := desc + " [git remote: " + ShowName(remotes[uuid]) + "]";
      assert r[|desc| + 2] == 'g' && (desc + " [here]")[|desc| + 2] == 'h';
      r
    else
      desc
  }

  /** `"%s %s %s" % (uuid, tstamp, desc)` */
  function RowText(uuid: string, time: string, desc: string): string {
    uuid + " " + time + " " + desc
  }

  /** What a row is made of before the seconds are converted: the UUID,
      the seconds text and the annotated description. */
  datatype RowFields = RowFields(uuid: string, seconds: string, desc: string)

  /** Everything the loop body does with one line except `float` and
      `strftime`: cut it, take the seconds out of the stamp, annotate the
      description. */
  function LineFields(raw: string, here: string, remotes: map<string, Option<string>>): (r: Result<RowFields, LogLineError>)
    ensures r.Failure? ==> r.error != BadStamp
    ensures r.Success? ==> ' ' in RStrip(raw) && r.value.uuid == RStrip(raw)[..IndexOf(RStrip(raw), ' ')]
  {
    match ParseUuidLine(raw)
    case Failure(err) => Failure(err)
    case Success(e) =>
      FirstWordOf(RStrip(raw), e);
      match StampSeconds(e.stamp)
      case None => Failure(NoStampValue)
      case Some(seconds) => Success(RowFields(e.uuid, seconds, Annotate(e.desc, e.uuid, here, remotes)))
  }

  /** The first word of a line without a space in its UUID is the UUID. */
  lemma FirstWordOf(l: string, e: UuidLogEntry)
    requires l == UuidLogLine(e.uuid, e.desc, e.stamp) && ' ' !in e.uuid
    ensures ' ' in l && l[..IndexOf(l, ' ')] == e.uuid
  {
    assert l[|e.uuid|] == ' ' && l[..|e.uuid|] == e.uuid;
    IndexOfUnique(l, ' ', |e.uuid|);
  }

  /** The row printed for one `uuid.log` line, or the exception it raises:
      the line's UUID, a space, the time, a space and the annotated
      description; the conversion fails only on a line that was cut. */
  function Row(raw: string, here: string, remotes: map<string, Option<string>>,
               localTime: map<string, string>): (r: Result<string, LogLineError>)
    ensures r.Success? ==> LineFields(raw, here, remotes).Success?
    ensures r.Success? ==>
      var f := LineFields(raw, here, remotes).value; FramedBy(r.value, f.uuid, f.desc)
    ensures r.Failure? ==> (r.error == BadStamp <==> LineFields(raw, here, remotes).Success?)
  {
    match LineFields(raw, here, remotes)
    case Failure(err) => Failure(err)
    case Success(f) =>
      if f.seconds in localTime then
        RowTextEnds(f.uuid, localTime[f.seconds], f.desc);
        Success(RowText(f.uuid, localTime[f.seconds], f.desc))
      else Failure(BadStamp)
  }

  /** `t` starts with `uuid` and a space, and ends with a space and `desc`. */
  predicate FramedBy(t: string, uuid: string, desc: string)
  {
    && |uuid| + |desc| + 2 <= |t|
    && t[..|uuid| + 1] == uuid + " "
    && t[|t| - |desc| - 1..] == " " + desc
  }

  lemma RowTextEnds(uuid: string, time: string, desc: string)
    ensures FramedBy(RowText(uuid, time, desc), uuid, desc)
  {
    var t := RowText(uuid, time, desc);
    assert t == (uuid + " ") + (time + " " + desc);
    assert t == (uuid + " " + time) + (" " + desc);
  }

  /** A line `uuid desc key=<seconds><unit>`, followed by any trailing white
      space such as its newline, yields its UUID, its seconds and its
      annotated description. */
  lemma LineFieldsOfLine(raw: string, uuid: string, desc: string, key: string, seconds: string, unit: char,
                         here: string, remotes: map<string, Option<string>>)
    requires ' ' !in uuid && ' ' !in key && ' ' !in seconds && '=' !in key
    requires RStrip(raw) == UuidLogLine(uuid, desc, key + "=" + seconds + [unit])
    ensures LineFields(raw, here, remotes) == Success(RowFields(uuid, seconds, Annotate(desc, uuid, here, remotes)))
  {
    var stamp := key + "=" + seconds + [unit];
    StrippedEndsInStamp(raw, uuid, desc, stamp);
    assert ' ' !in stamp by {
      assert stamp == key + ("=" + (seconds + [unit]));
    }
    SplitFieldsOf(uuid, desc, stamp);
    StampSecondsOf(key, seconds, unit);
  }

  /** A stripped line ends in a character that is not white space. */
  lemma StrippedEndsInStamp(raw: string, uuid: string, desc: string, stamp: string)
    requires RStrip(raw) == UuidLogLine(uuid, desc, stamp) && |stamp| > 0
    ensures !IsSpace(stamp[|stamp| - 1])
  {
    var l := RStrip(raw);
    assert l[|l| - 1] == stamp[|stamp| - 1];
  }

  /** Which exception a line raises before its seconds are converted, read
      off the stripped line: no space, one space, or a last word without
      `=`; any other line goes through. */
  lemma LineFieldsErrors(raw: string, here: string, remotes: map<string, Option<string>>)
    ensures var r, l := LineFields(raw, here, remotes), RStrip(raw);
      && (r == Failure(NoDescription) <==> Count(l, ' ') == 0)
      && (r == Failure(NoStamp) <==> Count(l, ' ') == 1)
      && (r == Failure(NoStampValue) <==>
            Count(l, ' ') >= 2 && '=' !in l[LastIndexOf(l, ' ') + 1..])
      && (r.Failure? ==> r.error != BadStamp)
  {
    CountZero(RStrip(raw), ' ');
    LineFieldsOfParse(raw, here, remotes);
    if ParseUuidLine(raw).Success? {
      LastWordIsStamp(raw);
    }
  }

  /** A line that is cut fails only for a stamp without `=`; a line that is
      not cut fails as the cutting did. */
  lemma LineFieldsOfParse(raw: string, here: string, remotes: map<string, Option<string>>)
    ensures var p, r := ParseUuidLine(raw), LineFields(raw, here, remotes);
      && (p.Failure? ==> r == Failure(p.error))
      && (p.Success? ==> (r.Failure? <==> '=' !in p.value.stamp) && (r.Failure? ==> r.error == NoStampValue))
  {
  }

  /** The stamp is the stripped line's last word. */
  lemma LastWordIsStamp(raw: string)
    requires ParseUuidLine(raw).Success?
    ensures var l := RStrip(raw);
      ' ' in l && l[LastIndexOf(l, ' ') + 1..] == ParseUuidLine(raw).value.stamp
  {
    LastWordOf(RStrip(raw), ParseUuidLine(raw).value);
  }

  /** The last word of a line without a space in its stamp is the stamp. */
  lemma LastWordOf(l: string, e: UuidLogEntry)
    requires l == UuidLogLine(e.uuid, e.desc, e.stamp) && ' ' !in e.stamp
    ensures ' ' in l && l[LastIndexOf(l, ' ') + 1..] == e.stamp
  {
    var uuid, desc, stamp := e.uuid, e.desc, e.stamp;
    var cut := |l| - |stamp| - 1;
    assert l[cut] == ' ' && l[cut + 1..] == stamp by {
      assert l == (uuid + [' '] + desc) + [' '] + stamp;
    }
    LastIndexOfUnique(l, ' ', cut);
  }

  /** The row of a well-formed line is its UUID, the printed time of its
      seconds and its annotated description; seconds that do not convert
      raise. */
  lemma RowOfLine(raw: string, uuid: string, desc: string, key: string, seconds: string, unit: char,
                  here: string, remotes: map<string, Option<string>>, localTime: map<string, string>)
    requires ' ' !in uuid && ' ' !in key && ' ' !in seconds && '=' !in key
    requires RStrip(raw) == UuidLogLine(uuid, desc, key + "=" + seconds + [unit])
    ensures seconds in localTime ==>
      Row(raw, here, remotes, localTime) == Success(uuid + " " + localTime[seconds] + " " + Annotate(desc, uuid, here, remotes))
    ensures seconds !in localTime ==> Row(raw, here, remotes, localTime) == Failure(BadStamp)
  {
    LineFieldsOfLine(raw, uuid, desc, key, seconds, unit, here, remotes);
  }

  /** Why `repos` stopped early. */
  datatype ReposError =
    | ConfigFailed(configError: GitConfig.ConfigError)
    | LogLineFailed(line: nat, lineError: LogLineError)

  /** The lines printed, and the exception that ended the command, if any. */
  datatype Output = Output(printed: seq<string>, error: Option<ReposError>)

  const Heading: string := "UUID | Created | Description | Git remote info"

  /** The rows of all lines, each computed on its own. */
  function RowAll(raws: seq<string>, here: string, remotes: map<string, Option<string>>,
                  localTime: map<string, string>): (rows: seq<Result<string, LogLineError>>)
    ensures |rows| == |raws|
    ensures forall i :: 0 <= i < |raws| ==> rows[i] == Row(raws[i], here, remotes, localTime)
  {
    seq(|raws|, i requires 0 <= i < |raws| => Row(raws[i], here, remotes, localTime))
  }

  /** The loop's printing: each row in order, stopping at the first line
      that raises. */
  function PrintRows(rows: seq<Result<string, LogLineError>>): (out: Output)
    ensures UpToFirstError(rows, out)
    decreases |rows|
  {
    if |rows| == 0 then Output([], None)
    else
      var n := |rows| - 1;
      var prev := PrintRows(rows[..n]);
      assert forall i :: 0 <= i < n ==> rows[..n][i] == rows[i];
      if prev.error.Some? then prev
      else
        match rows[n]
        case Success(text) => Output(prev.printed + [text], None)
        case Failure(err) => Output(prev.printed, Some(LogLineFailed(n, err)))
  }

  /** `out` printed the successful rows in order up to the first failing
      one, whose error (with its index) it reports; with no failing row it
      printed every row. */
  predicate UpToFirstError(rows: seq<Result<string, LogLineError>>, out: Output)
  {
    var k := |out.printed|;
    && k <= |rows|
    && (forall i :: 0 <= i < k ==> rows[i].Success? && out.printed[i] == rows[i].value)
    && (out.error.None? <==> k == |rows|)
    && (out.error.Some? ==> rows[k].Failure? && out.error.value == LogLineFailed(k, rows[k].error))
  }

  /** `cmd_repos()`: parse `.git/config`, then list `uuid.log`; an
      exception from the configuration ends the command before the heading. */
  function Repos(configLines: seq<string>, here: string, logLines: seq<string>,
                 localTime: map<string, string>): (out: Output)
    ensures GitConfig.ParseGitConfig(configLines).Failure? ==>
      out == Output([], Some(ConfigFailed(GitConfig.ParseGitConfig(configLines).error)))
    ensures GitConfig.ParseGitConfig(configLines).Success? ==>
      |out.printed| >= 1 && out.printed[0] == Heading
  {
    match GitConfig.ParseGitConfig(configLines)
    case Failure(e) => Output([], Some(ConfigFailed(e)))
    case Success(remotes) => Listing(remotes, here, logLines, localTime)
  }

  /** The heading, then the loop over the lines of `uuid.log`. */
  function Listing(remotes: map<string, Option<string>>, here: string, logLines: seq<string>,
                   localTime: map<string, string>): (out: Output)
    ensures |out.printed| >= 1 && out.printed[0] == Heading
  {
    var rows := PrintRows(RowAll(logLines, here, remotes, localTime));
    Output([Heading] + rows.printed, rows.error)
  }

  /** When every line is well formed, the heading is followed by one row
      per line, in order. */
  lemma ListingAllRows(remotes: map<string, Option<string>>, here: string, logLines: seq<string>,
                       localTime: map<string, string>)
    requires forall i :: 0 <= i < |logLines| ==> Row(logLines[i], here, remotes, localTime).Success?
    ensures var out := Listing(remotes, here, logLines, localTime);
      && out.error.None?
      && |out.printed| == |logLines| + 1
      && forall i :: 0 <= i < |logLines| ==>
           out.printed[i + 1] == Row(logLines[i], here, remotes, localTime).value
  {
    var rows := RowAll(logLines, here, remotes, localTime);
    HeadingShift(Heading, PrintRows(rows).printed, Listing(remotes, here, logLines, localTime).printed);
  }

  /** The heading is followed by the rows of the lines in order up to the
      first line that raises; that line's exception ends the command. */
  lemma ListingUpToFirstBadLine(remotes: map<string, Option<string>>, here: string, logLines: seq<string>,
                                localTime: map<string, string>)
    ensures var out := Listing(remotes, here, logLines, localTime); var k := |out.printed| - 1;
      && 0 <= k <= |logLines|
      && (forall i :: 0 <= i < k ==>
            Row(logLines[i], here, remotes, localTime).Success?
            && out.printed[i + 1] == Row(logLines[i], here, remotes, localTime).value)
      && (out.error.None? <==> k == |logLines|)
      && (out.error.Some? ==>
            Row(logLines[k], here, remotes, localTime).Failure?
            && out.error.value == LogLineFailed(k, Row(logLines[k], here, remotes, localTime).error))
  {
    var rows := RowAll(logLines, here, remotes, localTime);
    ShiftRows(Heading, rows, PrintRows(rows), Listing(remotes, here, logLines, localTime));
  }

  /** The heading followed by what the loop printed, read row by row. */
  lemma ShiftRows(heading: string, rows: seq<Result<string, LogLineError>>, p: Output, out: Output)
    requires UpToFirstError(rows, p)
    requires out == Output([heading] + p.printed, p.error)
    ensures ListsRows(rows, out)
  {
    HeadingShift(heading, p.printed, out.printed);
  }

  /** `out` is a heading followed by the successful rows in order up to the
      first failing one, whose error (with its index) it reports. */
  predicate ListsRows(rows: seq<Result<string, LogLineError>>, out: Output)
  {
    var k := |out.printed| - 1;
    && 0 <= k <= |rows|
    && (forall i :: 0 <= i < k ==> rows[i].Success? && out.printed[i + 1] == rows[i].value)
    && (out.error.None? <==> k == |rows|)
    && (out.error.Some? ==> rows[k].Failure? && out.error.value == LogLineFailed(k, rows[k].error))
  }

  lemma HeadingShift(heading: string, printed: seq<string>, out: seq<string>)
    requires out == [heading] + printed
    ensures |out| == |printed| + 1
    ensures forall i :: 0 <= i < |printed| ==> out[i + 1] == printed[i]
  {
  }

  /** End to end: a remote's UUID, assigned last under `[remote "<name>"]`
      in `.git/config`, lists its `uuid.log` line with that remote's name;
      the row is printed unless an earlier line raises first. */
  lemma ReposRemoteRow(configLines: seq<string>, here: string, logLines: seq<string>,
                       localTime: map<string, string>, i: nat, u: string, k: nat,
                       desc: string, key: string, seconds: string, unit: char)
    requires GitConfig.ParseGitConfig(configLines).Success?
    requires i < |configLines| && GitConfig.AssignsUuid(GitConfig.Classify(configLines[i]), u)
    requires forall j :: i < j < |configLines| ==> !GitConfig.AssignsUuid(GitConfig.Classify(configLines[j]), u)
    requires k < |logLines| && RStrip(logLines[k]) == UuidLogLine(u, desc, key + "=" + seconds + [unit])
    requires ' ' !in u && ' ' !in key && ' ' !in seconds && '=' !in key
    requires u != here && seconds in localTime
    ensures GitConfig.SecNameAfter(GitConfig.ClassifyAll(configLines)[..i]).Bound?
    ensures var out := Repos(configLines, here, logLines, localTime);
      var name := GitConfig.SecNameAfter(GitConfig.ClassifyAll(configLines)[..i]).name;
      && (k + 1 < |out.printed| ==>
            out.printed[k + 1] == u + " " + localTime[seconds] + " " + desc + " [git remote: " + ShowName(name) + "]")
      && (|out.printed| <= k + 1 ==> out.error.Some? && out.error.value.LogLineFailed? && out.error.value.line < k)
  {
    var remotes := GitConfig.ParseGitConfig(configLines).value;
    GitConfig.ParseGitConfigLastWins(configLines, i, u);
    assert Repos(configLines, here, logLines, localTime) == Listing(remotes, here, logLines, localTime);
    ListingRemoteRow(remotes, here, logLines, localTime, k, u, desc, key, seconds, unit);
  }

  /** The listing half of `ReposRemoteRow`, for any annex-uuid map. */
  lemma ListingRemoteRow(remotes: map<string, Option<string>>, here: string, logLines: seq<string>,
                         localTime: map<string, string>, k: nat,
                         u: string, desc: string, key: string, seconds: string, unit: char)
    requires u in remotes && u != here && seconds in localTime
    requires k < |logLines| && RStrip(logLines[k]) == UuidLogLine(u, desc, key + "=" + seconds + [unit])
    requires ' ' !in u && ' ' !in key && ' ' !in seconds && '=' !in key
    ensures var out := Listing(remotes, here, logLines, localTime);
      && (k + 1 < |out.printed| ==>
            out.printed[k + 1] == u + " " + localTime[seconds] + " " + desc + " [git remote: " + ShowName(remotes[u]) + "]")
      && (|out.printed| <= k + 1 ==> out.error.Some? && out.error.value.LogLineFailed? && out.error.value.line < k)
  {
    RemoteRow(logLines[k], u, desc, key, seconds, unit, here, remotes, localTime);
    ListingReachesRow(remotes, here, logLines, localTime, k,
      u + " " + localTime[seconds] + " " + desc + " [git remote: " + ShowName(remotes[u]) + "]");
  }

  /** The row of a remote's well-formed line. */
  lemma RemoteRow(raw: string, u: string, desc: string, key: string, seconds: string, unit: char,
                  here: string, remotes: map<string, Option<string>>, localTime: map<string, string>)
    requires u in remotes && u != here && seconds in localTime
    requires RStrip(raw) == UuidLogLine(u, desc, key + "=" + seconds + [unit])
    requires ' ' !in u && ' ' !in key && ' ' !in seconds && '=' !in key
    ensures Row(raw, here, remotes, localTime)
         == Success(u + " " + localTime[seconds] + " " + desc + " [git remote: " + ShowName(remotes[u]) + "]")
  {
    var suffix := " [git remote: " + ShowName(remotes[u]) + "]";
    var a := Annotate(desc, u, here, remotes);
    RowOfLine(raw, u, desc, key, seconds, unit, here, remotes, localTime);
    AnnotatedRemote(a, desc, suffix);
    RowReassociate(Row(raw, here, remotes, localTime), u, localTime[seconds], a, desc,
                   " [git remote: ", ShowName(remotes[u]), "]");
  }

  /** A line whose row succeeds is printed at its place after the heading,
      unless an earlier line raises first. */
  lemma ListingReachesRow(remotes: map<string, Option<string>>, here: string, logLines: seq<string>,
                          localTime: map<string, string>, k: nat, text: string)
    requires k < |logLines| && Row(logLines[k], here, remotes, localTime) == Success(text)
    ensures var out := Listing(remotes, here, logLines, localTime);
      && (k + 1 < |out.printed| ==> out.printed[k + 1] == text)
      && (|out.printed| <= k + 1 ==> out.error.Some? && out.error.value.LogLineFailed? && out.error.value.line < k)
  {
    var rows := RowAll(logLines, here, remotes, localTime);
    var out := Listing(remotes, here, logLines, localTime);
    ShiftRows(Heading, rows, PrintRows(rows), out);
    ReachesRow(rows, out, k, text);
  }

  lemma ReachesRow(rows: seq<Result<string, LogLineError>>, out: Output, k: nat, text: string)
    requires ListsRows(rows, out)
    requires k < |rows| && rows[k] == Success(text)
    ensures k + 1 < |out.printed| ==> out.printed[k + 1] == text
    ensures |out.printed| <= k + 1 ==> out.error.Some? && out.error.value.LogLineFailed? && out.error.value.line < k
  {
  }

  lemma AnnotatedRemote(r: string, desc: string, suffix: string)
    requires |r| >= |desc| && r[..|desc|] == desc && r[|desc|..] == suffix
    ensures r == desc + suffix
  {
    assert r == r[..|desc|] + r[|desc|..];
  }

  lemma RowReassociate(row: Result<string, LogLineError>, uuid: string, time: string, a: string,
                       desc: string, open: string, name: string, close: string)
    requires row == Success(uuid + " " + time + " " + a) && a == desc + (open + name + close)
    ensures row == Success(uuid + " " + time + " " + desc + open + name + close)
  {
    var x := uuid + " " + time + " ";
    assert a == desc + open + name + close;
    assert x + a == x + (desc + open + name) + close;
    assert x + (desc + open + name) == x + (desc + open) + name;
    assert x + (desc + open) == x + desc + open;
  }
}

=== FILE: wrappers.dfy ===
/** Failure-carrying datatypes shared by the model: Python's `None`-or-value
    and exception-or-value outcomes. */
module Wrappers {

  /** A value that may be absent (Python's `None`). */
  datatype Option<+T> = None | Some(value: T)

  /** Either a computed value or the exception the Python code would raise. */
  datatype Result<+T, +E> = Success(value: T) | Failure(error: E)
}
